=== FILE: README.md ===
# AI resume tailor: a Dafny model of its page logic

The application is a single browser page, `script.js`. It does four things:

- It keeps the choice of language-model service (Gemini, OpenAI or Claude) and each service's API key and model name in `localStorage`.
- It asks the chosen service to rewrite a resume, held as JSON, for a job description. It then asks the service for a cover letter.
- It renders the tailored resume record as HTML.
- It exports the resume as a PDF and the cover letter as an HTML page.

This project models the logic of the page in Dafny and proves properties of it. The modelled logic is:

- reading and validating the selected configuration;
- cleaning the provider's reply;
- classifying provider errors;
- the generate handler's checks and its effect on the page;
- the resume renderer;
- the settings store;
- the export guards and the cover-letter page.

Provider requests, `JSON.parse` and the browser are parameters of the model.

Modules, one per file:

| module | file | contents |
|---|---|---|
| `Wrappers` | `wrappers.dfy` | `Option` and `Result` |
| `Seqs` | `seqs.dfy` | `ConcatMap` and `Filter`, with their splitting and order lemmas |
| `Text` | `text.dfy` | ECMAScript white space, `trim()`, prefix, suffix and substring tests, `join`, ASCII upper case |
| `Config` | `config.dfy` | services, the settings form, `getCurrentLLMConfig` |
| `Cleaning` | `cleaning.dfy` | the fence-stripping replacements and the final `trim()` of a reply |
| `Gateway` | `gateway.dfy` | `callLLMAPI` with the provider reply as a parameter, and its error classification |
| `Ui` | `ui.dfy` | the page fields the handlers read and write |
| `Settings` | `settings.dfy` | `localStorage` effects, `loadLLMSettings` and the clear-all button |
| `Resume` | `resume.dfy` | the typed resume record and `renderHtmlResume` |
| `Download` | `download.dfy` | the two export buttons |
| `Generate` | `generate.dfy` | the generate button's handler |

Notes on the model:

- **The second fence pattern always runs.** Line 390 is applied to the result of line 389 unconditionally. A reply fenced with ```` ```json ```` whose inner text is itself fenced with ```` ``` ```` is stripped twice. The model follows the code.
- **Trimming comes last.** Line 391 trims only after both patterns have been tried. White space before the opening fence or after the closing fence therefore leaves both fences in the result (`PaddedFenceIsKept`).
- **The export guard misses the handler's errors.** The resume export refuses content that begins with the renderer's error paragraph `<p>Error:`. The generate handler writes its own errors as bare text beginning `Error:`, and the guard lets those through (`HandlerErrorsPassExportGuard`). This is stated as the code behaves.

## Model

| member | source | states |
|---|---|---|
| Text.Trim | script.js:391 | the result has no white space at either end; it is empty exactly when the input is all white space; it is a contiguous slice of the input with only white space cut off on both sides |
| Text.JoinSnoc | script.js:429 | joining one more part adds exactly one separator and that part at the end |
| Config.ParseServiceName | script.js:52-53 | assigning a service's own option value to the selector selects that service |
| Config.GetCurrentConfig | script.js:311-326 | succeeds exactly when a service is selected and its trimmed key and trimmed model are both non-empty; the result carries the selected service and the trimmed key and model; with no option selected the failure is the TypeError; the key is checked before the model |
| Cleaning.CleanResponse | script.js:389-391 | the cleaned reply never begins or ends with white space |
| Cleaning.JsonFencedIsBareFenced | script.js:389-390 | any text the first pattern matches is also matched by the second |
| Cleaning.UnfencedIsOnlyTrimmed | script.js:389-391 | text not enclosed by ``` at both ends is only trimmed |
| Cleaning.PaddedFenceIsKept | script.js:389-391 | a reply that starts or ends with white space keeps its fences and is only trimmed |
| Cleaning.JsonFenceYieldsInnerText | script.js:389-391 | a ```json fence yields its inner text trimmed; if that inner text is itself ```-fenced, the second pattern strips it again; a tag word that only begins with `json` (```jsonc) is matched too and keeps just its letters after `json` |
| Cleaning.OtherFenceKeepsTag | script.js:390-391 | a fence whose tag word does not begin with `json` (```js, ```JSON) loses its backticks but keeps the tag at the front |
| Cleaning.PlainFenceYieldsInnerText | script.js:389-391 | a plain ``` fence whose inner text does not start with "json" yields that inner text, trimmed |
| Cleaning.TrimKeepsNonWhitespacePrefix | script.js:391 | trimming never cuts into a leading word that holds no white space |
| Cleaning.JsonFenceRoundTrip | script.js:389-391 | an unpadded text that is not ```-fenced, wrapped in a ```json fence on lines of its own, is recovered exactly |
| Gateway.Classify | script.js:393-404 | the first matching test, in priority order (invalid key, unknown model, quota or limit), decides the error; each kind occurs exactly when its test matches and no earlier one does; an unmatched message is rethrown unchanged; the service and model are carried |
| Gateway.UnknownModelMessageNamesModel | script.js:398-399 | the unknown-model message quotes the configured model name |
| Gateway.ClassifiedMessagesNameService | script.js:396-401 | the invalid-key and quota messages name the service in upper case |
| Gateway.CallLlm | script.js:329-405 | a configuration error passes through unclassified; content is cleaned; a provider fault becomes exactly the error the classifier gives for the configured service, model and message; a success value is unpadded; a rethrown error keeps the provider's message |
| Settings.SettingKeysDistinct | script.js:55-57 | distinct (service, kind) pairs name distinct storage entries, none of which is the selection entry |
| Settings.Truthy | script.js:58-59 | a stored value counts exactly when its key is present and its value non-empty |
| Settings.SaveSetting | script.js:66-68 | one entry is set to the value and every other entry is unchanged |
| Settings.OnSettingInput | script.js:82-85 | a field edit stores the trimmed text under that service's key and leaves every other entry as it was |
| Settings.OnSelectionChange | script.js:76-80 | choosing a service stores its name under the selection entry and leaves every other entry as it was |
| Settings.LoadSettings | script.js:51-64 | the selection is the stored one, or Gemini when none is stored or it is empty; every service's fields are loaded the same way |
| Settings.LoadFields | script.js:56-59 | a stored key or model that is present and non-empty replaces the field text; an absent or empty one leaves the field as it was |
| Settings.ClearStore | script.js:123-133 | clearing removes exactly the six per-service entries and keeps the selection and every other entry |
| Settings.ClearAll | script.js:116-133 | clear-all empties the four text fields and every API key, resets every model to its HTML default, and keeps the selected service |
| Settings.SaveThenLoad | script.js:51-68 | saving a key or model and loading again puts the trimmed text back into that field, unless the text trimmed to nothing |
| Settings.SaveLeavesOtherSettings | script.js:66-68 | saving one field changes neither the loaded selection, nor any other stored setting, nor any other service's loaded fields |
| Settings.SaveKeepsSelection | script.js:51-67 | saving a key or model leaves the loaded selection as it was |
| Settings.SaveKeepsOtherEntries | script.js:66-68 | saving one key or model leaves every other service setting's stored value as it was |
| Settings.SaveKeepsOtherServices | script.js:55-68 | saving one service's key or model leaves what loading puts into every other service's fields unchanged |
| Settings.SelectThenLoad | script.js:51-53 | a selection made and then reloaded selects the same service |
| Settings.ClearThenLoad | script.js:51-64 | after clear-all, loading leaves every key and model field as the form held it and keeps the selection |
| Resume.ContactDetails | script.js:423-428 | one detail per present contact field, in the order email, phone, LinkedIn, GitHub, portfolio, each at the position the earlier present fields leave it |
| Resume.ContactHeaderShape | script.js:419-431 | the header holds the name if any, then the details joined by a spaced vertical bar in one paragraph; with no details the paragraph is left out |
| Resume.RenderHtmlResume | script.js:408-526 | a non-object renders as the error paragraph, and only a non-object does; a record renders inside the resume-render div |
| Resume.RenderingOpensWithTag | script.js:411-416 | every rendering, the error paragraph included, is non-empty and starts with `<` |
| Resume.Framed | script.js:416-525 | a framed body never equals the error paragraph, never starts like it and never starts with white space |
| Resume.SectionShape | script.js:419-522 | a section contributes no markup exactly when it is absent; a present section opens with its header; contact and skills count as present whenever their object is |
| Resume.SectionLayout | script.js:416-526 | the rendering is the markup of the present sections and nothing else; an absent section adds nothing |
| Resume.PresentSectionsExactly | script.js:419-522 | a section is listed exactly when it is present: contact and skills when their object exists, the summary when non-empty, each list when it has entries |
| Resume.PresentSectionsInOrder | script.js:416-526 | the present sections are listed in the fixed order contact, summary, experience, education, skills, projects, certifications, awards |
| Resume.SectionContained | script.js:416-526 | every section's markup appears whole in the rendering |
| Resume.SummaryShownVerbatim | script.js:434-436 | a non-empty summary appears in the rendering verbatim, unescaped, inside a paragraph |
| Resume.EveryEntryShown | script.js:439-522 | every job, education entry, project, certification and award appears in the rendering |
| Resume.EntriesInOrder | script.js:439-522 | in a list section (experience, education, projects, certifications, awards) the entries before i come first, then entry i, then the entries after it |
| Resume.DateInsertedBeforeClose | script.js:503-518 | a certification's date (lines 503-505) or an award's date (lines 516-518) adds only " (date)" just before the closing tags |
| Resume.ProjectDefaults | script.js:487-489 | a project without a name is headed "Unnamed Project" |
| Resume.CertificationDefaults | script.js:501-503 | a certification without a name or issuer shows "Unnamed Certification" and "N/A" |
| Resume.AwardDefaults | script.js:514-516 | an award without a name or organisation shows "Unnamed Award" and "N/A" |
| Resume.EmptyObjectsStillRender | script.js:419-482 | a record whose contact object has only empty fields still yields the bare header, and one whose skills object has only empty lists still yields the titled skills section |
| Download.DownloadResume | script.js:550-573 | the resume export is refused exactly for blank content, content starting with the error paragraph, or a missing PDF library; blank or error content gets the no-content message; an export that passes both tests names `tailored_resume.pdf` and carries the container content |
| Download.NewlinesToBr | script.js:583 | the converted text holds no line feed; it is three characters longer per line feed; text without line feeds is unchanged; a single line feed becomes `<br>` and any other single character stays |
| Download.NewlinesToBrAppend | script.js:583 | converting a concatenation converts each part, so the rewrite acts character by character |
| Download.BrRoundTrip | script.js:583 | a text without `<` is recovered by reading every `<br>` as a line feed |
| Download.BrIsNotInvertible | script.js:583 | wherever it stands, a `<br>` typed in the letter and a line feed convert to the same markup |
| Download.DownloadCoverLetter | script.js:575-603 | the letter export is refused exactly for a blank letter; otherwise the page is the fixed head, then exactly the converted letter, then the fixed tail, as `generated_cover_letter.html` |
| Download.CoverLetterRecoverable | script.js:583-601 | a non-blank letter without `<` is recovered from the exported page's paragraph |
| Download.RenderedResumeExportable | script.js:550-556 | a rendering passes the export guard exactly when the value was an object |
| Generate.PreCheck | script.js:237-264 | stops for a blank resume, then for a blank job description, then for unparsable resume JSON, each exactly in its case; otherwise passes on the trimmed, non-empty inputs |
| Generate.GenerateRun | script.js:233-308 | keeps the form and both inputs; leaves the page untouched for missing input; clears both outputs for invalid JSON; past the checks, a failed tailoring call, an unparsable reply, a failed letter call and two successes lead to their own outcome; makes no gateway call when stopped, one when the tailoring call fails or its reply does not parse, and two otherwise; writes `Error: ` and the failing call's error into both outputs; on completion shows the rendering of the parsed, cleaned reply and the cleaned letter |
| Generate.InputProblemsStopBeforeGateway | script.js:240-264 | with missing or unparsable input the result does not depend on the replies or the tailored-JSON parser, and no gateway call is made |
| Generate.ConfigErrorReachesOutputs | script.js:269-298 | a configuration problem ends the run at the first call, with its own message in both outputs |
| Generate.LetterIgnoredUnlessRequested | script.js:237-284 | the cover-letter reply plays no part unless the inputs pass, the tailoring call succeeds and its reply parses |
| Generate.ErrorTextsAreNotRenderings | script.js:275-298 | no error text written by the handler, and no empty output, equals a rendering |
| Generate.ErrorPrefixPassesGuard | script.js:552 | text beginning `Error: ` is neither blank nor starts with the error paragraph, so the resume export guard does not refuse it |
| Generate.RenderingKeptOnlyOnCompletion | script.js:283-298 | once past the input checks, the output holds a rendering exactly when both calls succeeded; a failed letter call overwrites the rendering |
| Generate.HandlerErrorsPassExportGuard | script.js:275-298 | the resume export guard refuses none of the error texts the handler writes into the resume output |

## Left out

- Resume upload and text extraction (script.js lines 145-230): PDF and DOCX parsing are foreign libraries, and the extraction prompt is a provider call.
- Provider requests (script.js lines 334-385): the SDK and `fetch` calls are replaced by a `Reply` parameter. Building the error message from an HTTP error body (lines 358 and 381) is part of that reply.
- The prompts (lines 266 and 286) and `JSON.stringify`: they only shape what is sent to the provider.
- `JSON.parse`: the generate handler takes it as two parameters, `validJson` and `parseTailored`.
- The message area, `setLoadingState`, timers, console output and `updateLLMConfigVisibility`: these are display only.
- The outer `catch` of the generate handler (lines 303-307): it only shows a message.
- `html2pdf` and the Blob download: an export is described by its file name and content. The PDF is made from the `.resume-render` element; the model passes the whole container content.
- Reading `innerHTML` back: the browser re-serialises the assigned markup. The model reads back the string that was assigned.
- Line breaks in textareas: reading a textarea's `value` turns every CR and CRLF into LF, so a carriage return in the stored letter never reaches the rewrite at line 583. The model keeps the string that was assigned.
- Resume values that are not strings or arrays where the renderer expects them, and `null` entries in lists: the record is typed. A falsy or absent string is `""`, and an absent list is empty.
- Resume.RenderHtmlResume: does not model a renderer exception on malformed records, for example `experience` that is not an array, because the record is typed.
- Config.GetCurrentConfig: a stored selection that names no option reaches the model only as "no option selected". The TypeError text is the V8 engine's wording.
- Gateway.CallLlm: only `Error` objects are thrown, so a thrown value always has a `message`.
- Download.DownloadResume: the PDF is made from the `.resume-render` element inside the container. Content without that element, such as the handler's `Error: ` texts, hands `html2pdf` null, so `Exported` means only that the guard and the library test passed.
- Generate.GenerateRun: the form is read once for both calls. Edits made while a request is pending are not modelled.

=== FILE: cleaning.dfy ===
/** The response-cleaning tail of `callLLMAPI` (script.js lines 389-391): two anchored
    regular-expression replacements followed by `trim()`. The first pattern,
    /^```json\s*([\s\S]*?)\s*```$/, matches exactly when the text starts with ```json
    and ends with ``` (the two cannot overlap), and its lazy group flanked by greedy
    `\s*` captures the text between them with surrounding white space removed. The
    second, /^```([\s\S]*?)```$/, matches when the text starts and ends with two
    non-overlapping ``` markers and captures everything between them. Neither pattern
    has the multiline flag, so `^` and `$` anchor at the ends of the whole text. */
module Cleaning {
  import opened Text

  const JsonFence: string := "```json"
  const Fence: string := "```"

  predicate IsJsonFenced(s: string)
  {
    |s| >= |JsonFence| + |Fence| && StartsWith(s, JsonFence) && EndsWith(s, Fence)
  }

  predicate IsBareFenced(s: string)
  {
    |s| >= 2 * |Fence| && StartsWith(s, Fence) && EndsWith(s, Fence)
  }

  /** The first replacement (line 389). */
  function StripJsonFence(s: string): string
  {
    if IsJsonFenced(s) then Trim(s[|JsonFence|..|s| - |Fence|]) else s
  }

  /** The second replacement (line 390). */
  function StripBareFence(s: string): string
  {
    if IsBareFenced(s) then s[|Fence|..|s| - |Fence|] else s
  }

  /** Lines 389-391: both replacements, in order, then `trim()`. */
  function CleanResponse(content: string): (r: string)
    ensures Unpadded(r)
  {
    Trim(StripBareFence(StripJsonFence(content)))
  }

  lemma JsonFencedIsBareFenced(s: string)
    requires IsJsonFenced(s)
    ensures IsBareFenced(s)
  {
    assert s[..|Fence|] == s[..|JsonFence|][..|Fence|];
  }

  /** Text that is not fenced at both ends is only trimmed. */
  lemma UnfencedIsOnlyTrimmed(s: string)
    requires !IsBareFenced(s)
    ensures CleanResponse(s) == Trim(s)
  {
    if IsJsonFenced(s) {
      JsonFencedIsBareFenced(s);
    }
  }

  /** In particular white space before the opening or after the closing fence (a
      trailing newline, say) keeps both fences in the result, because the text is
      trimmed only after the patterns have been tried. */
  lemma PaddedFenceIsKept(s: string)
    requires |s| > 0 && (IsWhitespace(s[0]) || IsWhitespace(s[|s| - 1]))
    ensures CleanResponse(s) == Trim(s)
  {
    UnfencedIsOnlyTrimmed(s);
  }

  /** A ```json fence yields its inner text trimmed, unless that text is itself
      fenced by ``` at both ends, in which case the second pattern strips it too. */
  lemma JsonFenceYieldsInnerText(inner: string)
    ensures var s := JsonFence + inner + Fence; var t := Trim(inner);
            CleanResponse(s) == if IsBareFenced(t) then Trim(t[|Fence|..|t| - |Fence|]) else t
  {
    var s := JsonFence + inner + Fence;
    assert s[..|JsonFence|] == JsonFence;
    assert s[|s| - |Fence|..] == Fence;
    assert s[|JsonFence|..|s| - |Fence|] == inner;
    assert IsJsonFenced(s);
    var t := Trim(inner);
    assert StripJsonFence(s) == t;
    if !IsBareFenced(t) {
      assert StripBareFence(t) == t;
      TrimIdempotent(inner);
    }
  }

  /** A fence whose tag word does not begin with `json`, ```js or ```JSON say, is
      removed but its tag word is kept at the front of the result. A tag word that
      does begin with `json`, such as ```jsonc, is matched by the first pattern
      instead and keeps only its letters after `json` (`JsonFenceYieldsInnerText`). */
  lemma OtherFenceKeepsTag(tag: string, body: string)
    requires tag != [] && forall i :: 0 <= i < |tag| ==> !IsWhitespace(tag[i])
    requires !StartsWith(tag + body, "json")
    ensures var r := CleanResponse(Fence + tag + body + Fence);
            StartsWith(r, tag) && r == Trim(tag + body)
  {
    var tb := tag + body;
    assert Fence + tag + body + Fence == Fence + tb + Fence;
    JsonFencedNeedsJsonTag(tb);
    BareFenceStripped(tb);
    TrimKeepsNonWhitespacePrefix(tag, body);
  }

  /** The second pattern takes exactly the outer ``` markers off. */
  lemma BareFenceStripped(x: string)
    ensures StripBareFence(Fence + x + Fence) == x
  {
    var s := Fence + x + Fence;
    assert s[..|Fence|] == Fence;
    assert s[|s| - |Fence|..] == Fence;
    assert s[|Fence|..|s| - |Fence|] == x;
  }

  /** A plain ``` fence, whose inner text does not start with "json", yields that text
      trimmed. */
  lemma PlainFenceYieldsInnerText(x: string)
    requires !StartsWith(x, "json")
    ensures CleanResponse(Fence + x + Fence) == Trim(x)
  {
    JsonFencedNeedsJsonTag(x);
    BareFenceStripped(x);
  }

  /** A bare fence is taken for a ```json fence only when the text inside starts with "json". */
  lemma JsonFencedNeedsJsonTag(tb: string)
    ensures IsJsonFenced(Fence + tb + Fence) ==> StartsWith(tb, "json")
  {
    var s := Fence + tb + Fence;
    if IsJsonFenced(s) {
      assert |tb| >= 4;
      assert s[..|JsonFence|] == JsonFence;
      assert tb[..4] == s[..|JsonFence|][|Fence|..];
    }
  }

  /** Trimming cannot cut into a leading word that holds no white space. */
  lemma TrimKeepsNonWhitespacePrefix(tag: string, body: string)
    requires tag != [] && forall i :: 0 <= i < |tag| ==> !IsWhitespace(tag[i])
    ensures StartsWith(Trim(tag + body), tag)
  {
    var s := tag + body;
    var r := Trim(s);
    assert s[0] == tag[0];
    assert LeadingWhitespace(s) == 0;
    WhitespaceTail(s, |r|);
    assert s[|tag| - 1] == tag[|tag| - 1];
    assert |tag| <= |r|;
    assert r[..|tag|] == s[..|tag|];
  }

  /** Wrapping an unpadded text in a ```json fence on lines of its own and cleaning
      the result gives the text back, unless the text is itself ```-fenced. */
  lemma JsonFenceRoundTrip(x: string)
    requires Unpadded(x) && !IsBareFenced(x)
    ensures CleanResponse(JsonFence + "\n" + x + "\n" + Fence) == x
  {
    assert JsonFence + "\n" + x + "\n" + Fence == JsonFence + ("\n" + x + "\n") + Fence;
    assert AllWhitespace("\n");
    TrimStripsPadding("\n", x, "\n");
    JsonFenceYieldsInnerText("\n" + x + "\n");
  }
}

=== FILE: config.dfy ===
/** The three language-model services, the per-service settings fields of the page,
    and `getCurrentLLMConfig` (script.js lines 311-326), which validates the selected
    service's key and model name. */
module Config {
  import opened Wrappers
  import opened Text

  datatype Service = Gemini | OpenAi | Claude

  /** The service identifier used as option value and as storage-key prefix. */
  function Name(s: Service): string
  {
    match s
    case Gemini => "gemini"
    case OpenAi => "openai"
    case Claude => "claude"
  }

  /** `service.toUpperCase()`, as used in every user-facing error message. */
  function UpperName(s: Service): string
  {
    AsciiUpper(Name(s))
  }

  /** The option of the service selector whose value is `name`, if any. */
  function ParseService(name: string): (r: Option<Service>)
    ensures r.Some? ==> Name(r.value) == name
    ensures r.None? ==> name != Name(Gemini) && name != Name(OpenAi) && name != Name(Claude)
  {
    if name == Name(Gemini) then Some(Gemini)
    else if name == Name(OpenAi) then Some(OpenAi)
    else if name == Name(Claude) then Some(Claude)
    else None
  }

  lemma ParseServiceName(s: Service)
    ensures ParseService(Name(s)) == Some(s)
  {
    assert Name(Gemini)[0] == 'g' && Name(OpenAi)[0] == 'o' && Name(Claude)[0] == 'c';
  }

  /** One value per service: the `configInputs` table of the page. */
  datatype PerService<T> = PerService(gemini: T, openai: T, claude: T)
  {
    function Get(s: Service): T
    {
      match s
      case Gemini => gemini
      case OpenAi => openai
      case Claude => claude
    }

    function Set(s: Service, v: T): (r: PerService<T>)
      ensures r.Get(s) == v
      ensures forall t :: t != s ==> r.Get(t) == Get(t)
    {
      match s
      case Gemini => this.(gemini := v)
      case OpenAi => this.(openai := v)
      case Claude => this.(claude := v)
    }
  }

  /** The raw contents of one service's API-key and model-name inputs. */
  datatype ServiceFields = ServiceFields(apiKey: string, modelName: string)

  /** The settings part of the page. `selection` is None when the selector holds no
      option, which happens when it is assigned a value that names no service. */
  datatype Form = Form(selection: Option<Service>, fields: PerService<ServiceFields>)

  datatype LlmConfig = LlmConfig(service: Service, apiKey: string, modelName: string)

  datatype ConfigError = NoServiceSelected | MissingApiKey(service: Service) | MissingModelName(service: Service)

  /** The message of the Error each failure throws. With no option selected, indexing
      `configInputs` yields undefined and reading `.apiKey` throws a TypeError; its
      wording is the V8 engine's. */
  function ConfigErrorMessage(e: ConfigError): string
  {
    match e
    case NoServiceSelected => "Cannot read properties of undefined (reading 'apiKey')"
    case MissingApiKey(s) => "API Key for " + UpperName(s) + " is missing."
    case MissingModelName(s) => "Model Name for " + UpperName(s) + " is missing."
  }

  /** `getCurrentLLMConfig`: the selected service with its trimmed key and model, or
      the first missing piece, the key being checked before the model. */
  function GetCurrentConfig(form: Form): (r: Result<LlmConfig, ConfigError>)
    ensures r.Success? <==> form.selection.Some?
                            && Trim(form.fields.Get(form.selection.value).apiKey) != []
                            && Trim(form.fields.Get(form.selection.value).modelName) != []
    ensures r.Success? ==> var f := form.fields.Get(r.value.service);
                           && Some(r.value.service) == form.selection
                           && r.value.apiKey == Trim(f.apiKey) && r.value.modelName == Trim(f.modelName)
                           && Unpadded(r.value.apiKey) && r.value.apiKey != []
                           && Unpadded(r.value.modelName) && r.value.modelName != []
    ensures form.selection.None? ==> r == Failure(NoServiceSelected)
    ensures form.selection.Some? && Trim(form.fields.Get(form.selection.value).apiKey) == []
            ==> r == Failure(MissingApiKey(form.selection.value))
    ensures form.selection.Some? && Trim(form.fields.Get(form.selection.value).apiKey) != []
            && Trim(form.fields.Get(form.selection.value).modelName) == []
            ==> r == Failure(MissingModelName(form.selection.value))
  {
    match form.selection
    case None => Failure(NoServiceSelected)
    case Some(service) =>
      var apiKey := Trim(form.fields.Get(service).apiKey);
      var modelName := Trim(form.fields.Get(service).modelName);
      if apiKey == [] then Failure(MissingApiKey(service))
      else if modelName == [] then Failure(MissingModelName(service))
      else Success(LlmConfig(service, apiKey, modelName))
  }
}

=== FILE: download.dfy ===
/** The two export buttons (script.js lines 547-603): the guards that refuse an empty or
    failed result, and the cover letter's conversion to a standalone HTML page, whose
    one transformation is rewriting every line feed as `<br>`. The PDF renderer and the
    browser download itself are outside the model; an export is described by the file
    name and content it would hand over. */
module Download {
  import opened Text
  import opened Resume

  const LineBreak: string := "<br>"

  const NoResumeMessage: string := "No resume content available to download or content contains an error."
  const NoPdfLibraryMessage: string := "PDF generation library (html2pdf.js) is not loaded. Please check your internet connection and refresh."
  const NoCoverLetterMessage: string := "No cover letter content available to download."

  const ResumeFileName: string := "tailored_resume.pdf"
  const CoverLetterFileName: string := "generated_cover_letter.html"

  datatype Export = Refused(message: string) | Exported(fileName: string, content: string)

  /** The resume button's guard: the container is blank or holds the renderer's error paragraph. */
  predicate ResumeRefused(content: string)
  {
    Trim(content) == [] || StartsWith(content, ErrorMarker)
  }

  /** The resume button. `pdfLibraryLoaded` stands for the `typeof html2pdf` test. */
  function DownloadResume(content: string, pdfLibraryLoaded: bool): (e: Export)
    ensures e.Refused? <==> AllWhitespace(content) || StartsWith(content, ErrorMarker) || !pdfLibraryLoaded
    ensures (AllWhitespace(content) || StartsWith(content, ErrorMarker)) ==> e == Refused(NoResumeMessage)
    ensures e.Exported? ==> e.fileName == ResumeFileName && e.content == content
  {
    if ResumeRefused(content) then Refused(NoResumeMessage)
    else if !pdfLibraryLoaded then Refused(NoPdfLibraryMessage)
    else Exported(ResumeFileName, content)
  }

  /** `text.replace(/\n/g, '<br>')`: only line feed is rewritten; a carriage return stays. */
  function NewlinesToBr(text: string): (r: string)
    ensures forall i :: 0 <= i < |r| ==> r[i] != '\n'
    ensures |r| == |text| + 3 * CountLineFeeds(text)
    ensures CountLineFeeds(text) == 0 ==> r == text
    ensures |text| == 1 ==> r == if text[0] == '\n' then LineBreak else text
  {
    if text == [] then []
    else if text[0] == '\n' then LineBreak + NewlinesToBr(text[1..])
    else [text[0]] + NewlinesToBr(text[1..])
  }

  function CountLineFeeds(text: string): (n: nat)
    ensures n <= |text|
    ensures n == 0 <==> forall i :: 0 <= i < |text| ==> text[i] != '\n'
  {
    if text == [] then 0
    else (if text[0] == '\n' then 1 else 0) + CountLineFeeds(text[1..])
  }

  /** The reading a browser gives the converted text back: each `<br>` a line feed. */
  function BrToNewlines(html: string): string
  {
    if html == [] then []
    else if StartsWith(html, LineBreak) then "\n" + BrToNewlines(html[4..])
    else [html[0]] + BrToNewlines(html[1..])
  }

  /** A text without `<` comes back unchanged from its converted form. */
  lemma {:induction false} BrRoundTrip(text: string)
    requires forall i :: 0 <= i < |text| ==> text[i] != '<'
    ensures BrToNewlines(NewlinesToBr(text)) == text
    decreases |text|
  {
    if text != [] {
      BrRoundTrip(text[1..]);
      if text[0] == '\n' {
        BreakReadBack(NewlinesToBr(text[1..]));
      } else {
        CharReadBack(text[0], NewlinesToBr(text[1..]));
      }
      assert text == [text[0]] + text[1..];
    }
  }

  lemma BreakReadBack(rest: string)
    ensures BrToNewlines(LineBreak + rest) == "\n" + BrToNewlines(rest)
  {
    var s := LineBreak + rest;
    assert StartsWith(s, LineBreak);
    assert s[4..] == rest;
  }

  lemma CharReadBack(c: char, rest: string)
    requires c != '<'
    ensures BrToNewlines([c] + rest) == [c] + BrToNewlines(rest)
  {
    var s := [c] + rest;
    assert s[0] == c;
    assert !StartsWith(s, LineBreak);
    assert s[1..] == rest;
  }

  /** The rewrite works character by character: converting a concatenation converts
      each part. With the one-character case above, this says every line feed becomes
      `<br>` and every other character stays as it is. */
  lemma {:induction false} NewlinesToBrAppend(a: string, b: string)
    ensures NewlinesToBr(a + b) == NewlinesToBr(a) + NewlinesToBr(b)
    decreases |a|
  {
    if a != [] {
      assert (a + b)[0] == a[0];
      assert (a + b)[1..] == a[1..] + b;
      NewlinesToBrAppend(a[1..], b);
    } else {
      assert a + b == b;
    }
  }

  /** A `<br>` already in the letter and a line feed convert alike, wherever they
      stand: the rewrite loses information once the letter contains markup. */
  lemma BrIsNotInvertible(a: string, b: string)
    ensures NewlinesToBr(a + "<br>" + b) == NewlinesToBr(a + "\n" + b)
  {
    NewlinesToBrAppend(a + "<br>", b);
    NewlinesToBrAppend(a, "<br>");
    NewlinesToBrAppend(a + "\n", b);
    NewlinesToBrAppend(a, "\n");
    assert NewlinesToBr("\n") == LineBreak;
    assert NewlinesToBr("<br>") == "<br>" by {
      assert CountLineFeeds("<br>") == 0;
    }
  }

  const CoverLetterHead: string :=
    "<!DOCTYPE html>\n"
    + "<html lang=\"en\">\n"
    + "<head>\n"
    + "<meta charset=\"UTF-8\">\n"
    + "<meta name=\"viewport\" content=\"width=device-width, initial-scale=1.0\">\n"
    + "<title>Generated Cover Letter</title>\n"
    + "<link rel=\"stylesheet\" href=\"style.css\">\n"
    + "</head>\n"
    + "<body>\n"
    + "<div class=\"container\">\n"
    + "<div class=\"resume-render\" style=\"padding: 20px; margin-top:20px;\">  <!-- Re-use resume-render for similar styling -->\n"
    + "<h2>Cover Letter</h2>\n"
    + "<p>"

  const CoverLetterTail: string :=
    "</p>\n"
    + "</div>\n"
    + "</div>\n"
    + "</body>\n"
    + "</html>"

  /** The cover letter button: a blank letter is refused; otherwise the letter, line
      feeds rewritten, is the one paragraph of a fixed page. */
  function DownloadCoverLetter(text: string): (e: Export)
    ensures e.Refused? <==> AllWhitespace(text)
    ensures e.Refused? ==> e.message == NoCoverLetterMessage
    ensures e.Exported? ==> e.fileName == CoverLetterFileName
    ensures e.Exported? ==> StartsWith(e.content, CoverLetterHead) && EndsWith(e.content, CoverLetterTail)
    ensures e.Exported? ==> |e.content| == |CoverLetterHead| + |text| + 3 * CountLineFeeds(text) + |CoverLetterTail|
    ensures e.Exported? ==> e.content[|CoverLetterHead|..|e.content| - |CoverLetterTail|] == NewlinesToBr(text)
  {
    if Trim(text) == [] then Refused(NoCoverLetterMessage)
    else
      var page := CoverLetterHead + NewlinesToBr(text) + CoverLetterTail;
      Enclosed(CoverLetterHead, NewlinesToBr(text), CoverLetterTail);
      Exported(CoverLetterFileName, page)
  }

  /** The letter can be read back from the page it is exported as, when it holds no `<`. */
  lemma CoverLetterRecoverable(text: string)
    requires !AllWhitespace(text)
    requires forall i :: 0 <= i < |text| ==> text[i] != '<'
    ensures var e := DownloadCoverLetter(text);
            e.Exported?
            && var body := e.content[|CoverLetterHead|..|e.content| - |CoverLetterTail|];
               BrToNewlines(body) == text
  {
    BrRoundTrip(text);
  }

  /** Whatever the renderer produced can be exported exactly when the value was an
      object: the error paragraph is the one rendering the guard refuses. */
  lemma RenderedResumeExportable(v: ResumeValue)
    ensures DownloadResume(RenderHtmlResume(v), true).Exported? <==> v.Record?
  {
    var html := RenderHtmlResume(v);
    if v.Record? {
      Framed(RecordBody(v.record));
    } else {
      assert html[..|ErrorMarker|] == ErrorMarker;
    }
  }
}

=== FILE: gateway.dfy ===
/** `callLLMAPI` (script.js lines 329-405) with the provider request abstracted away:
    the provider either answers with a content string or fails with an error message.
    Configuration errors are raised before the `try` block; provider failures are
    classified by substring tests on their message; content is cleaned. */
module Gateway {
  import opened Wrappers
  import opened Text
  import opened Config
  import opened Cleaning

  /** What the selected provider's request produced. */
  datatype Reply = Content(text: string) | Fault(message: string)

  /** The errors `callLLMAPI` throws. */
  datatype LlmError =
    | ConfigFailure(cause: ConfigError)
    | InvalidApiKey(service: Service)
    | UnknownModel(service: Service, modelName: string)
    | QuotaExceeded(service: Service)
    | Upstream(message: string)

  /** The `message` of each thrown Error. */
  function Message(e: LlmError): string
  {
    match e
    case ConfigFailure(cause) => ConfigErrorMessage(cause)
    case InvalidApiKey(s) =>
      "The API key for " + UpperName(s) + " is not valid. Please check and try again."
    case UnknownModel(s, m) =>
      "The model name \"" + m + "\" for " + UpperName(s) + " could not be found or is invalid."
    case QuotaExceeded(s) =>
      "You may have exceeded your quota or rate limit for the " + UpperName(s) + " API."
    case Upstream(m) => m
  }

  predicate MentionsInvalidKey(message: string)
  {
    Contains(message, "API key not valid") || Contains(message, "Incorrect API key")
  }

  predicate MentionsUnknownModel(message: string)
  {
    Contains(message, "model not found") || Contains(message, "Invalid model")
  }

  predicate MentionsQuota(message: string)
  {
    Contains(message, "quota") || Contains(message, "limit")
  }

  /** The `catch` block of `callLLMAPI`: the first matching test, in priority order,
      decides the error; a message matching none is rethrown unchanged. */
  function Classify(service: Service, modelName: string, message: string): (e: LlmError)
    ensures !e.ConfigFailure?
    ensures e.InvalidApiKey? <==> MentionsInvalidKey(message)
    ensures e.UnknownModel? <==> !MentionsInvalidKey(message) && MentionsUnknownModel(message)
    ensures e.QuotaExceeded? <==> !MentionsInvalidKey(message) && !MentionsUnknownModel(message) && MentionsQuota(message)
    ensures e.Upstream? <==> !MentionsInvalidKey(message) && !MentionsUnknownModel(message) && !MentionsQuota(message)
    ensures e.Upstream? ==> e.message == message
    ensures !e.Upstream? ==> e.service == service
    ensures e.UnknownModel? ==> e.modelName == modelName
  {
    if MentionsInvalidKey(message) then InvalidApiKey(service)
    else if MentionsUnknownModel(message) then UnknownModel(service, modelName)
    else if MentionsQuota(message) then QuotaExceeded(service)
    else Upstream(message)
  }

  /** The model-not-found message names the configured model verbatim. */
  lemma UnknownModelMessageNamesModel(s: Service, m: string)
    ensures Contains(Message(UnknownModel(s, m)), m)
  {
    var prefix := "The model name \"";
    var suffix := "\" for " + UpperName(s) + " could not be found or is invalid.";
    assert Message(UnknownModel(s, m)) == prefix + m + suffix;
    ContainsMiddle(prefix, m, suffix);
  }

  /** The invalid-key and quota messages name the service in upper case. */
  lemma ClassifiedMessagesNameService(s: Service)
    ensures Contains(Message(InvalidApiKey(s)), UpperName(s))
    ensures Contains(Message(QuotaExceeded(s)), UpperName(s))
  {
    var k := "The API key for ";
    var k' := " is not valid. Please check and try again.";
    assert Message(InvalidApiKey(s)) == k + UpperName(s) + k';
    ContainsMiddle(k, UpperName(s), k');
    var q := "You may have exceeded your quota or rate limit for the ";
    var q' := " API.";
    assert Message(QuotaExceeded(s)) == q + UpperName(s) + q';
    ContainsMiddle(q, UpperName(s), q');
  }

  /** `callLLMAPI(promptText)`. The configuration is read first, outside the `try`,
      so its errors reach the caller as they are; afterwards the reply is either
      cleaned or classified. */
  function CallLlm(form: Form, reply: Reply): (r: Result<string, LlmError>)
    ensures GetCurrentConfig(form).Failure? ==> r == Failure(ConfigFailure(GetCurrentConfig(form).error))
    ensures GetCurrentConfig(form).Success? && reply.Content? ==> r == Success(CleanResponse(reply.text))
    ensures GetCurrentConfig(form).Success? && reply.Fault?
            ==> r == Failure(Classify(GetCurrentConfig(form).value.service, GetCurrentConfig(form).value.modelName, reply.message))
    ensures r.Success? ==> reply.Content? && Unpadded(r.value)
    ensures r.Failure? && r.error.Upstream? ==> reply.Fault? && r.error.message == reply.message
  {
    match GetCurrentConfig(form)
    case Failure(e) => Failure(ConfigFailure(e))
    case Success(config) =>
      match reply
      case Content(text) => Success(CleanResponse(text))
      case Fault(message) => Failure(Classify(config.service, config.modelName, message))
  }

  /** Configuration errors are never reclassified: whatever the provider would have
      said, a missing key or model reaches the caller as that error. */
  lemma ConfigErrorsBypassClassification(form: Form, reply1: Reply, reply2: Reply)
    requires GetCurrentConfig(form).Failure?
    ensures CallLlm(form, reply1) == CallLlm(form, reply2)
    ensures CallLlm(form, reply1).error.ConfigFailure?
  {
  }
}

=== FILE: generate.dfy ===
/** The generate button (script.js lines 233-308): check the inputs, ask the provider
    to tailor the resume, render the tailored record, ask for a cover letter, and put
    the results (or the error text) on the page. The two provider replies and the two
    `JSON.parse` calls are parameters: `validJson` says whether the resume JSON parses,
    `parseTailored` what the tailored reply parses to (`None` when it throws). */
module Generate {
  import opened Wrappers
  import opened Text
  import opened Config
  import opened Cleaning
  import opened Gateway
  import opened Resume
  import opened Ui
  import opened Download

  datatype InputProblem = MissingResume | MissingJobDescription | InvalidResumeJson

  datatype Gate = Stop(problem: InputProblem) | Proceed(resumeJson: string, jobDescription: string)

  /** The checks made before any provider call, in the order the handler makes them:
      both text areas are trimmed and must be non-empty, then the resume JSON must parse. */
  function PreCheck(parsedJson: string, jobDescription: string, validJson: string -> bool): (g: Gate)
    ensures g == Stop(MissingResume) <==> AllWhitespace(parsedJson)
    ensures g == Stop(MissingJobDescription) <==> !AllWhitespace(parsedJson) && AllWhitespace(jobDescription)
    ensures g == Stop(InvalidResumeJson)
            <==> !AllWhitespace(parsedJson) && !AllWhitespace(jobDescription) && !validJson(Trim(parsedJson))
    ensures g.Proceed? ==> g.resumeJson != [] && g.jobDescription != [] && validJson(g.resumeJson)
    ensures g.Proceed? ==> g.resumeJson == Trim(parsedJson) && g.jobDescription == Trim(jobDescription)
  {
    var resumeJson := Trim(parsedJson);
    var jobDesc := Trim(jobDescription);
    if resumeJson == [] then Stop(MissingResume)
    else if jobDesc == [] then Stop(MissingJobDescription)
    else if !validJson(resumeJson) then Stop(InvalidResumeJson)
    else Proceed(resumeJson, jobDesc)
  }

  datatype Outcome =
    | Stopped(problem: InputProblem)
    | TailoringFailed(error: LlmError)
    | TailoredJsonInvalid
    | LetterFailed(error: LlmError)
    | Completed

  /** The page after the handler, how it ended, and how many times it called `callLLMAPI`. */
  datatype Run = Run(page: Page, outcome: Outcome, gatewayCalls: nat)

  /** The prefix of every error text the handler writes into the outputs. */
  const ErrorPrefix: string := "Error: "
  const TailoredJsonInvalidDetail: string := "AI returned an invalid JSON format for the tailored resume. Check console for details."
  const TailoredJsonInvalidText: string := ErrorPrefix + TailoredJsonInvalidDetail
  const NoLetterText: string := "Could not generate cover letter due to resume tailoring error."

  /** What the `catch` block writes into both outputs. */
  function ErrorText(e: LlmError): string
  {
    ErrorPrefix + Message(e)
  }

  function GenerateRun(page: Page, validJson: string -> bool, parseTailored: string -> Option<ResumeValue>,
                       tailorReply: Reply, letterReply: Reply): (run: Run)
    ensures run.page.form == page.form
    ensures run.page.parsedJson == page.parsedJson && run.page.jobDescription == page.jobDescription
    ensures var g := PreCheck(page.parsedJson, page.jobDescription, validJson);
            (run.outcome.Stopped? <==> g.Stop?) && (g.Stop? ==> run.outcome.problem == g.problem)
    ensures run.outcome.Stopped? && run.outcome.problem != InvalidResumeJson ==> run.page == page
    ensures run.outcome == Stopped(InvalidResumeJson) ==> run.page == page.(resumeOutput := [], coverLetter := [])
    ensures run.gatewayCalls == 0 <==> run.outcome.Stopped?
    ensures run.gatewayCalls == 2 <==> run.outcome.LetterFailed? || run.outcome.Completed?
    ensures run.gatewayCalls == 1 <==> run.outcome.TailoringFailed? || run.outcome.TailoredJsonInvalid?
    ensures run.outcome.TailoringFailed? || run.outcome.LetterFailed?
            ==> run.page.resumeOutput == ErrorText(run.outcome.error) && run.page.coverLetter == ErrorText(run.outcome.error)
    ensures run.outcome.TailoredJsonInvalid?
            ==> run.page.resumeOutput == TailoredJsonInvalidText && run.page.coverLetter == NoLetterText
    ensures run.outcome.TailoringFailed? ==> CallLlm(page.form, tailorReply) == Failure(run.outcome.error)
    ensures run.outcome.LetterFailed? ==> CallLlm(page.form, letterReply) == Failure(run.outcome.error)
    ensures PreCheck(page.parsedJson, page.jobDescription, validJson).Proceed? && CallLlm(page.form, tailorReply).Failure?
            ==> run.outcome == TailoringFailed(CallLlm(page.form, tailorReply).error)
    ensures PreCheck(page.parsedJson, page.jobDescription, validJson).Proceed? && CallLlm(page.form, tailorReply).Success?
            ==> var parsed := parseTailored(CallLlm(page.form, tailorReply).value);
                && (parsed.None? ==> run.outcome == TailoredJsonInvalid)
                && (parsed.Some? && CallLlm(page.form, letterReply).Success? ==> run.outcome.Completed?)
                && (parsed.Some? && CallLlm(page.form, letterReply).Failure? ==> run.outcome.LetterFailed?)
    ensures run.outcome.Completed?
            ==> tailorReply.Content? && letterReply.Content?
                && var tailored := parseTailored(CleanResponse(tailorReply.text));
                   tailored.Some?
                   && run.page.resumeOutput == RenderHtmlResume(tailored.value)
                   && run.page.coverLetter == CleanResponse(letterReply.text)
  {
    match PreCheck(page.parsedJson, page.jobDescription, validJson)
    case Stop(problem) =>
      if problem == InvalidResumeJson then
        Run(page.(resumeOutput := [], coverLetter := []), Stopped(problem), 0)
      else
        Run(page, Stopped(problem), 0)
    case Proceed(_, _) =>
      var cleared := page.(resumeOutput := [], coverLetter := []);
      match CallLlm(page.form, tailorReply)
      case Failure(e) =>
        Run(cleared.(resumeOutput := ErrorText(e), coverLetter := ErrorText(e)), TailoringFailed(e), 1)
      case Success(tailored) =>
        match parseTailored(tailored)
        case None =>
          Run(cleared.(resumeOutput := TailoredJsonInvalidText, coverLetter := NoLetterText), TailoredJsonInvalid, 1)
        case Some(v) =>
          var rendered := cleared.(resumeOutput := RenderHtmlResume(v));
          match CallLlm(page.form, letterReply)
          case Failure(e) =>
            Run(rendered.(resumeOutput := ErrorText(e), coverLetter := ErrorText(e)), LetterFailed(e), 2)
          case Success(letter) =>
            Run(rendered.(coverLetter := letter), Completed, 2)
  }

  /** A missing or unparsable input stops the handler before any provider call, so the
      replies and the tailored-JSON parser play no part. */
  lemma InputProblemsStopBeforeGateway(page: Page, validJson: string -> bool,
                                       parse1: string -> Option<ResumeValue>, parse2: string -> Option<ResumeValue>,
                                       tailor1: Reply, tailor2: Reply, letter1: Reply, letter2: Reply)
    requires AllWhitespace(page.parsedJson) || AllWhitespace(page.jobDescription) || !validJson(Trim(page.parsedJson))
    ensures GenerateRun(page, validJson, parse1, tailor1, letter1) == GenerateRun(page, validJson, parse2, tailor2, letter2)
    ensures GenerateRun(page, validJson, parse1, tailor1, letter1).gatewayCalls == 0
  {
    assert PreCheck(page.parsedJson, page.jobDescription, validJson).Stop?;
  }

  /** A configuration problem surfaces on the first call, verbatim, in both outputs. */
  lemma ConfigErrorReachesOutputs(page: Page, validJson: string -> bool, parseTailored: string -> Option<ResumeValue>,
                                  tailorReply: Reply, letterReply: Reply)
    requires PreCheck(page.parsedJson, page.jobDescription, validJson).Proceed?
    requires GetCurrentConfig(page.form).Failure?
    ensures var run := GenerateRun(page, validJson, parseTailored, tailorReply, letterReply);
            var cause := GetCurrentConfig(page.form).error;
            run.outcome == TailoringFailed(ConfigFailure(cause))
            && run.page.resumeOutput == ErrorPrefix + ConfigErrorMessage(cause)
            && run.page.coverLetter == ErrorPrefix + ConfigErrorMessage(cause)
            && run.gatewayCalls == 1
  {
  }

  /** The cover-letter reply plays a part only when the handler gets as far as asking
      for the letter: past the input checks, with a tailoring call that succeeded and
      a reply that parsed. */
  lemma LetterIgnoredUnlessRequested(page: Page, validJson: string -> bool, parseTailored: string -> Option<ResumeValue>,
                                      tailorReply: Reply, letter1: Reply, letter2: Reply)
    requires !PreCheck(page.parsedJson, page.jobDescription, validJson).Proceed?
             || CallLlm(page.form, tailorReply).Failure?
             || parseTailored(CallLlm(page.form, tailorReply).value).None?
    ensures GenerateRun(page, validJson, parseTailored, tailorReply, letter1)
            == GenerateRun(page, validJson, parseTailored, tailorReply, letter2)
  {
  }

  /** The texts written by the error paths start like no rendering does. */
  lemma ErrorTextsAreNotRenderings(m: string, v: ResumeValue)
    ensures ErrorPrefix + m != RenderHtmlResume(v)
    ensures [] != RenderHtmlResume(v)
  {
    RenderingOpensWithTag(v);
    assert (ErrorPrefix + m)[0] == ErrorPrefix[0] == 'E';
  }

  /** Text beginning with the error prefix gets past the resume export guard. */
  lemma ErrorPrefixPassesGuard(m: string)
    ensures !ResumeRefused(ErrorPrefix + m)
  {
    var out := ErrorPrefix + m;
    assert out[0] == ErrorPrefix[0] == 'E';
    assert out[1] == ErrorPrefix[1] == 'r';
    assert !IsWhitespace(out[0]);
    assert ErrorMarker[1] == 'p';
  }

  /** Once past the input checks, the output container holds a rendered resume exactly
      when both provider calls succeeded: a failed cover-letter call overwrites the
      rendering that was already shown. */
  lemma RenderingKeptOnlyOnCompletion(page: Page, validJson: string -> bool, parseTailored: string -> Option<ResumeValue>,
                                      tailorReply: Reply, letterReply: Reply)
    requires PreCheck(page.parsedJson, page.jobDescription, validJson).Proceed?
             || PreCheck(page.parsedJson, page.jobDescription, validJson) == Stop(InvalidResumeJson)
    ensures var run := GenerateRun(page, validJson, parseTailored, tailorReply, letterReply);
            (exists v :: run.page.resumeOutput == RenderHtmlResume(v)) <==> run.outcome.Completed?
  {
    var run := GenerateRun(page, validJson, parseTailored, tailorReply, letterReply);
    if !run.outcome.Completed? {
      forall v
        ensures run.page.resumeOutput != RenderHtmlResume(v)
      {
        if run.outcome.TailoringFailed? || run.outcome.LetterFailed? {
          ErrorTextsAreNotRenderings(Message(run.outcome.error), v);
        } else {
          ErrorTextsAreNotRenderings(TailoredJsonInvalidDetail, v);
        }
      }
    }
  }

  /** The export guard looks for the renderer's error paragraph, but every error this
      handler writes into the container is bare text beginning "Error:", which the guard
      lets through. */
  lemma HandlerErrorsPassExportGuard(page: Page, validJson: string -> bool, parseTailored: string -> Option<ResumeValue>,
                                     tailorReply: Reply, letterReply: Reply)
    ensures var run := GenerateRun(page, validJson, parseTailored, tailorReply, letterReply);
            run.outcome.TailoringFailed? || run.outcome.LetterFailed? || run.outcome.TailoredJsonInvalid?
            ==> !ResumeRefused(run.page.resumeOutput)
  {
    var run := GenerateRun(page, validJson, parseTailored, tailorReply, letterReply);
    if run.outcome.TailoringFailed? || run.outcome.LetterFailed? {
      ErrorPrefixPassesGuard(Message(run.outcome.error));
    } else if run.outcome.TailoredJsonInvalid? {
      ErrorPrefixPassesGuard(TailoredJsonInvalidDetail);
    }
  }
}

=== FILE: resume.dfy ===
/** The resume record and `renderHtmlResume` (script.js lines 408-529). The record is
    the JSON object the language model returns, typed: a string field that is absent
    or falsy is "", a list that is absent is empty, and `contactInfo` and `skills`
    are optional because their mere presence produces markup. Values are pasted
    into the markup verbatim: nothing is escaped. */
module Resume {
  import opened Wrappers
  import opened Text
  import opened Seqs

  datatype Contact = Contact(name: string, email: string, phone: string, linkedin: string, github: string, portfolio: string)
  datatype Job = Job(jobTitle: string, company: string, location: string, dates: string, duties: seq<string>)
  datatype Education = Education(institution: string, degree: string, graduationDate: string, location: string, details: string)
  datatype Skills = Skills(technical: seq<string>, soft: seq<string>, other: seq<string>)
  datatype Project = Project(name: string, description: string, technologies: seq<string>, link: string)
  datatype Certification = Certification(name: string, issuingOrganization: string, date: string)
  datatype Award = Award(name: string, organization: string, date: string)

  datatype ResumeRecord = ResumeRecord(
    contactInfo: Option<Contact>,
    summary: string,
    experience: seq<Job>,
    education: seq<Education>,
    skills: Option<Skills>,
    projects: seq<Project>,
    certifications: seq<Certification>,
    awards: seq<Award>
  )

  /** What `JSON.parse` handed to the renderer: an object, or something the guard at
      line 411 rejects (null, a number, a string, a boolean). */
  datatype ResumeValue = NotAnObject | Record(record: ResumeRecord)

  /** The opening the export guard looks for. */
  const ErrorMarker: string := "<p>Error:"
  const ErrorParagraph: string := ErrorMarker + " No resume data to display or data is not in the correct format.</p>"
  const RenderOpen: string := "<div class=\"resume-render\">"
  const RenderClose: string := "</div>"
  const HeaderOpen: string := "<header class=\"resume-header\">"

  /** `value || fallback` on a string. */
  function Or(value: string, fallback: string): string
  {
    if value != [] then value else fallback
  }

  /** `if (cond) html += markup`. */
  function When(cond: bool, markup: string): string
  {
    if cond then markup else []
  }

  /** `if (value) list.push(item)`. */
  function Pushed(value: string, item: string): seq<string>
  {
    if value != [] then [item] else []
  }

  /** A titled section. */
  function Titled(title: string, body: string): string
  {
    "<section class=\"resume-section\"><h2>" + title + "</h2>" + body + "</section>"
  }

  // ---- Contact header (lines 419-431) ----

  function Presence(value: string): nat
  {
    if value != [] then 1 else 0
  }

  /** The contact details, in the order email, phone, LinkedIn, GitHub, portfolio. */
  function ContactDetails(ci: Contact): (r: seq<string>)
    ensures |r| == Presence(ci.email) + Presence(ci.phone) + Presence(ci.linkedin) + Presence(ci.github) + Presence(ci.portfolio)
    ensures ci.email != [] ==> r[0] == "<a href=\"mailto:" + ci.email + "\">" + ci.email + "</a>"
    ensures ci.phone != [] ==> r[Presence(ci.email)] == ci.phone
    ensures ci.linkedin != [] ==> r[Presence(ci.email) + Presence(ci.phone)]
                                  == "<a href=\"" + ci.linkedin + "\" target=\"_blank\">LinkedIn</a>"
    ensures ci.github != [] ==> r[Presence(ci.email) + Presence(ci.phone) + Presence(ci.linkedin)]
                                == "<a href=\"" + ci.github + "\" target=\"_blank\">GitHub</a>"
    ensures ci.portfolio != [] ==> r[|r| - 1] == "<a href=\"" + ci.portfolio + "\" target=\"_blank\">Portfolio</a>"
  {
    Pushed(ci.email, "<a href=\"mailto:" + ci.email + "\">" + ci.email + "</a>")
    + Pushed(ci.phone, ci.phone)
    + Pushed(ci.linkedin, "<a href=\"" + ci.linkedin + "\" target=\"_blank\">LinkedIn</a>")
    + Pushed(ci.github, "<a href=\"" + ci.github + "\" target=\"_blank\">GitHub</a>")
    + Pushed(ci.portfolio, "<a href=\"" + ci.portfolio + "\" target=\"_blank\">Portfolio</a>")
  }

  function ContactHtml(contactInfo: Option<Contact>): string
  {
    match contactInfo
    case None => []
    case Some(ci) =>
      var details := ContactDetails(ci);
      HeaderOpen
      + When(ci.name != [], "<h1>" + ci.name + "</h1>")
      + When(|details| > 0, "<p class=\"contact-details\">" + Join(details, " | ") + "</p>")
      + "</header>"
  }

  /** The header holds the name when there is one, then the details joined by " | "
      in one paragraph; with no details at all the paragraph is left out. */
  lemma ContactHeaderShape(ci: Contact)
    ensures var name := When(ci.name != [], "<h1>" + ci.name + "</h1>");
            ci.email == [] && ci.phone == [] && ci.linkedin == [] && ci.github == [] && ci.portfolio == []
            ==> ContactHtml(Some(ci)) == HeaderOpen + name + "</header>"
    ensures var name := When(ci.name != [], "<h1>" + ci.name + "</h1>");
            var details := ContactDetails(ci);
            |details| > 0
            ==> ContactHtml(Some(ci)) == HeaderOpen + name + "<p class=\"contact-details\">" + Join(details, " | ") + "</p>" + "</header>"
  {
    var details := ContactDetails(ci);
    var name := When(ci.name != [], "<h1>" + ci.name + "</h1>");
    var para := When(|details| > 0, "<p class=\"contact-details\">" + Join(details, " | ") + "</p>");
    assert ContactHtml(Some(ci)) == HeaderOpen + name + para + "</header>";
    if |details| == 0 {
      assert para == [];
    }
  }

  // ---- Experience (lines 439-456) ----

  function DutyHtml(duty: string): string
  {
    "<li>" + duty + "</li>"
  }

  function JobHtml(job: Job): string
  {
    var subHeader := Pushed(job.location, job.location) + Pushed(job.dates, job.dates);
    "<div class=\"job\">"
    + "<h3>" + Or(job.jobTitle, "") + " at " + Or(job.company, "") + "</h3>"
    + When(|subHeader| > 0, "<p class=\"job-subheader\"><em>" + Join(subHeader, " | ") + "</em></p>")
    + When(|job.duties| > 0, "<ul>" + ConcatMap(job.duties, DutyHtml) + "</ul>")
    + "</div>"
  }

  // ---- Education (lines 459-472) ----

  function EducationEntryHtml(edu: Education): string
  {
    var details := Pushed(edu.location, edu.location)
                   + Pushed(edu.graduationDate, "Graduated: " + edu.graduationDate)
                   + Pushed(edu.details, edu.details);
    "<div class=\"education-entry\">"
    + "<h3>" + Or(edu.degree, "") + " - " + Or(edu.institution, "") + "</h3>"
    + When(|details| > 0, "<p><em>" + Join(details, " | ") + "</em></p>")
    + "</div>"
  }

  // ---- Skills (lines 475-482) ----

  function SkillLine(heading: string, items: seq<string>): string
  {
    When(|items| > 0, "<p><strong>" + heading + ":</strong> " + Join(items, ", ") + "</p>")
  }

  function SkillLines(s: Skills): string
  {
    SkillLine("Technical", s.technical) + SkillLine("Soft", s.soft) + SkillLine("Other", s.other)
  }

  // ---- Projects (lines 485-496) ----

  function ProjectHtml(p: Project): string
  {
    "<div class=\"project-entry\">"
    + "<h3>" + Or(p.name, "Unnamed Project") + "</h3>"
    + ProjectDetails(p)
    + "</div>"
  }

  /** The description, technologies and link paragraphs, each only when present. */
  function ProjectDetails(p: Project): string
  {
    When(p.description != [], "<p>" + p.description + "</p>")
    + When(|p.technologies| > 0, "<p><em>Technologies: " + Join(p.technologies, ", ") + "</em></p>")
    + When(p.link != [], "<p><a href=\"" + p.link + "\" target=\"_blank\">Project Link</a></p>")
  }

  // ---- Certifications and awards (lines 499-522) ----

  /** ` (date)` after a dated entry, nothing otherwise. */
  function DateSuffix(date: string): string
  {
    When(date != [], " (" + date + ")")
  }

  function CertificationHtml(c: Certification): string
  {
    "<div class=\"certification-entry\">"
    + "<p><strong>" + Or(c.name, "Unnamed Certification") + "</strong> - " + Or(c.issuingOrganization, "N/A")
    + DateSuffix(c.date) + "</p>"
    + "</div>"
  }

  function AwardHtml(a: Award): string
  {
    "<div class=\"award-entry\">"
    + "<p><strong>" + Or(a.name, "Unnamed Award") + "</strong> - " + Or(a.organization, "N/A")
    + DateSuffix(a.date) + "</p>"
    + "</div>"
  }

  // ---- Sections ----

  datatype Section =
    | ContactSection | SummarySection | ExperienceSection | EducationSection
    | SkillsSection | ProjectsSection | CertificationsSection | AwardsSection

  /** The order in which the renderer emits sections. */
  const SectionOrder: seq<Section> := [
    ContactSection, SummarySection, ExperienceSection, EducationSection,
    SkillsSection, ProjectsSection, CertificationsSection, AwardsSection
  ]

  function Rank(k: Section): int
  {
    match k
    case ContactSection => 0
    case SummarySection => 1
    case ExperienceSection => 2
    case EducationSection => 3
    case SkillsSection => 4
    case ProjectsSection => 5
    case CertificationsSection => 6
    case AwardsSection => 7
  }

  /** The heading of a titled section; the contact header has none. */
  function Title(k: Section): string
    requires k != ContactSection
  {
    match k
    case SummarySection => "Summary"
    case ExperienceSection => "Experience"
    case EducationSection => "Education"
    case SkillsSection => "Skills"
    case ProjectsSection => "Projects"
    case CertificationsSection => "Certifications"
    case AwardsSection => "Awards"
  }

  /** When a section appears: the contact header and the skills section whenever their
      object is present, the summary when it is truthy, the lists when non-empty. */
  predicate Present(r: ResumeRecord, k: Section)
  {
    match k
    case ContactSection => r.contactInfo.Some?
    case SummarySection => r.summary != []
    case ExperienceSection => |r.experience| > 0
    case EducationSection => |r.education| > 0
    case SkillsSection => r.skills.Some?
    case ProjectsSection => |r.projects| > 0
    case CertificationsSection => |r.certifications| > 0
    case AwardsSection => |r.awards| > 0
  }

  /** What a titled section holds between its heading and its closing tag. */
  function SectionBody(r: ResumeRecord, k: Section): string
    requires k != ContactSection
  {
    match k
    case SummarySection => "<p>" + r.summary + "</p>"
    case ExperienceSection => ConcatMap(r.experience, JobHtml)
    case EducationSection => ConcatMap(r.education, EducationEntryHtml)
    case SkillsSection => if r.skills.Some? then SkillLines(r.skills.value) else []
    case ProjectsSection => ConcatMap(r.projects, ProjectHtml)
    case CertificationsSection => ConcatMap(r.certifications, CertificationHtml)
    case AwardsSection => ConcatMap(r.awards, AwardHtml)
  }

  /** The markup one section contributes: the contact header, or a titled block when
      the section is present. */
  function SectionHtml(r: ResumeRecord, k: Section): string
  {
    if k == ContactSection then ContactHtml(r.contactInfo)
    else When(Present(r, k), Titled(Title(k), SectionBody(r, k)))
  }

  /** The markup of the given sections of a record, one after another. */
  function SectionsHtml(r: ResumeRecord, ks: seq<Section>): string
  {
    ConcatMap(ks, k => SectionHtml(r, k))
  }

  /** The sections of a record, in the fixed order of the source. */
  function RecordBody(r: ResumeRecord): string
  {
    SectionsHtml(r, SectionOrder)
  }

  /** `renderHtmlResume`: the markup left in the output container. */
  function RenderHtmlResume(v: ResumeValue): (html: string)
    ensures v.NotAnObject? <==> html == ErrorParagraph
    ensures v.Record? ==> StartsWith(html, RenderOpen) && EndsWith(html, RenderClose)
  {
    match v
    case NotAnObject => ErrorParagraph
    case Record(r) =>
      Framed(RecordBody(r));
      RenderOpen + RecordBody(r) + RenderClose
  }

  /** Every rendering, the error paragraph included, opens with a tag. */
  lemma RenderingOpensWithTag(v: ResumeValue)
    ensures |RenderHtmlResume(v)| > 0 && RenderHtmlResume(v)[0] == '<'
  {
    match v
    case NotAnObject =>
      assert ErrorParagraph[0] == ErrorMarker[0] == '<';
    case Record(r) =>
      Framed(RecordBody(r));
      assert RenderOpen[0] == '<';
  }

  /** A framed body is never the error paragraph nor starts like it: their second
      characters differ. Nor does it start with whitespace. */
  lemma Framed(body: string)
    ensures var html := RenderOpen + body + RenderClose;
            StartsWith(html, RenderOpen) && EndsWith(html, RenderClose) && html != ErrorParagraph
            && !StartsWith(html, ErrorMarker) && !IsWhitespace(html[0])
  {
    var html := RenderOpen + body + RenderClose;
    Enclosed(RenderOpen, body, RenderClose);
    assert html[1] == RenderOpen[1] == 'd';
    assert ErrorParagraph[1] == ErrorMarker[1] == 'p';
    assert html[0] == RenderOpen[0] == '<';
  }

  /** A section contributes nothing exactly when it is absent; a present one opens with
      its header: the contact header, or a titled section block. */
  lemma SectionShape(r: ResumeRecord, k: Section)
    ensures SectionHtml(r, k) == [] <==> !Present(r, k)
    ensures Present(r, k) && k == ContactSection ==> StartsWith(SectionHtml(r, k), HeaderOpen)
    ensures Present(r, k) && k != ContactSection
            ==> StartsWith(SectionHtml(r, k), "<section class=\"resume-section\"><h2>" + Title(k) + "</h2>")
  {
    if k == ContactSection {
      ContactShape(r.contactInfo);
    } else {
      TitledWhen(Title(k), SectionBody(r, k), Present(r, k));
    }
  }

  lemma ContactShape(contactInfo: Option<Contact>)
    ensures ContactHtml(contactInfo) == [] <==> contactInfo.None?
    ensures contactInfo.Some? ==> StartsWith(ContactHtml(contactInfo), HeaderOpen)
  {
    if contactInfo.Some? {
      var ci := contactInfo.value;
      var details := ContactDetails(ci);
      Enclosed(HeaderOpen,
               When(ci.name != [], "<h1>" + ci.name + "</h1>")
               + When(|details| > 0, "<p class=\"contact-details\">" + Join(details, " | ") + "</p>"),
               "</header>");
    }
  }

  lemma TitledWhen(title: string, body: string, present: bool)
    ensures When(present, Titled(title, body)) == [] <==> !present
    ensures present ==> StartsWith(When(present, Titled(title, body)), "<section class=\"resume-section\"><h2>" + title + "</h2>")
  {
    var open := "<section class=\"resume-section\"><h2>" + title + "</h2>";
    assert Titled(title, body) == open + body + "</section>";
    Enclosed(open, body, "</section>");
  }

  /** The sections a record shows, in emission order. */
  function PresentSections(r: ResumeRecord): seq<Section>
  {
    Filter(SectionOrder, k => Present(r, k))
  }

  lemma SectionOrderIsComplete()
    ensures |SectionOrder| == 8
    ensures forall k :: 0 <= Rank(k) < 8 && SectionOrder[Rank(k)] == k
    ensures forall i :: 0 <= i < |SectionOrder| ==> Rank(SectionOrder[i]) == i
  {
  }

  /** The rendered record is the present sections' markup and nothing else: an absent
      section contributes nothing. */
  lemma SectionLayout(r: ResumeRecord)
    ensures RenderHtmlResume(Record(r)) == RenderOpen + SectionsHtml(r, PresentSections(r)) + RenderClose
  {
    AbsentSectionsAddNothing(r);
  }

  lemma AbsentSectionsAddNothing(r: ResumeRecord)
    ensures RecordBody(r) == SectionsHtml(r, PresentSections(r))
  {
    var f := k => SectionHtml(r, k);
    var p := k => Present(r, k);
    forall i | 0 <= i < |SectionOrder| && !p(SectionOrder[i])
      ensures f(SectionOrder[i]) == []
    {
      SectionShape(r, SectionOrder[i]);
    }
    ConcatMapFilterDropsEmpty(SectionOrder, p, f);
  }

  /** The present sections come in the fixed order contact, summary, experience,
      education, skills, projects, certifications, awards. */
  lemma PresentSectionsInOrder(r: ResumeRecord)
    ensures RankIncreasing(PresentSections(r), Rank)
  {
    SectionOrderIsComplete();
    FilterKeepsOrder(SectionOrder, k => Present(r, k), Rank);
  }

  /** A section is listed exactly when it is present. */
  lemma PresentSectionsExactly(r: ResumeRecord)
    ensures forall k :: k in PresentSections(r) <==> Present(r, k)
  {
    forall k
      ensures k in PresentSections(r) <==> Present(r, k)
    {
      SectionOrderIsComplete();
      if Present(r, k) {
        assert SectionOrder[Rank(k)] == k;
      }
    }
  }

  // ---- Contents ----

  lemma ImageContained<T>(xs: seq<T>, i: nat, f: T -> string)
    requires i < |xs|
    ensures Contains(ConcatMap(xs, f), f(xs[i]))
  {
    ConcatMapSplit(xs, i, f);
    ContainsMiddle(ConcatMap(xs[..i], f), f(xs[i]), ConcatMap(xs[i + 1..], f));
  }

  lemma TitledContainsBody(title: string, body: string)
    ensures Contains(Titled(title, body), body)
  {
    ContainsMiddle("<section class=\"resume-section\"><h2>" + title + "</h2>", body, "</section>");
  }

  /** Every section's markup appears, whole, in the rendered record. */
  lemma SectionContained(r: ResumeRecord, k: Section)
    ensures Contains(RenderHtmlResume(Record(r)), SectionHtml(r, k))
  {
    var f := k => SectionHtml(r, k);
    SectionOrderIsComplete();
    ImageContained(SectionOrder, Rank(k), f);
    var body := RecordBody(r);
    ContainsMiddle(RenderOpen, body, RenderClose);
    ContainsTransitive(RenderOpen + body + RenderClose, body, SectionHtml(r, k));
  }

  /** The summary is pasted into the document verbatim, inside a paragraph. */
  lemma SummaryShownVerbatim(r: ResumeRecord)
    requires r.summary != []
    ensures Contains(RenderHtmlResume(Record(r)), "<p>" + r.summary + "</p>")
  {
    SectionContained(r, SummarySection);
    TitledContainsBody("Summary", "<p>" + r.summary + "</p>");
    ContainsTransitive(RenderHtmlResume(Record(r)), SectionHtml(r, SummarySection), "<p>" + r.summary + "</p>");
  }

  /** Every job, education entry, project, certification and award is rendered. */
  lemma EveryEntryShown(r: ResumeRecord)
    ensures forall i :: 0 <= i < |r.experience| ==> Contains(RenderHtmlResume(Record(r)), JobHtml(r.experience[i]))
    ensures forall i :: 0 <= i < |r.education| ==> Contains(RenderHtmlResume(Record(r)), EducationEntryHtml(r.education[i]))
    ensures forall i :: 0 <= i < |r.projects| ==> Contains(RenderHtmlResume(Record(r)), ProjectHtml(r.projects[i]))
    ensures forall i :: 0 <= i < |r.certifications| ==> Contains(RenderHtmlResume(Record(r)), CertificationHtml(r.certifications[i]))
    ensures forall i :: 0 <= i < |r.awards| ==> Contains(RenderHtmlResume(Record(r)), AwardHtml(r.awards[i]))
  {
    forall i | 0 <= i < |r.experience|
      ensures Contains(RenderHtmlResume(Record(r)), JobHtml(r.experience[i]))
    {
      EntryShown(r, ExperienceSection, r.experience, i, JobHtml);
    }
    forall i | 0 <= i < |r.education|
      ensures Contains(RenderHtmlResume(Record(r)), EducationEntryHtml(r.education[i]))
    {
      EntryShown(r, EducationSection, r.education, i, EducationEntryHtml);
    }
    forall i | 0 <= i < |r.projects|
      ensures Contains(RenderHtmlResume(Record(r)), ProjectHtml(r.projects[i]))
    {
      EntryShown(r, ProjectsSection, r.projects, i, ProjectHtml);
    }
    forall i | 0 <= i < |r.certifications|
      ensures Contains(RenderHtmlResume(Record(r)), CertificationHtml(r.certifications[i]))
    {
      EntryShown(r, CertificationsSection, r.certifications, i, CertificationHtml);
    }
    forall i | 0 <= i < |r.awards|
      ensures Contains(RenderHtmlResume(Record(r)), AwardHtml(r.awards[i]))
    {
      EntryShown(r, AwardsSection, r.awards, i, AwardHtml);
    }
  }

  lemma EntryShown<T>(r: ResumeRecord, k: Section, xs: seq<T>, i: nat, f: T -> string)
    requires k != ContactSection && i < |xs| && Present(r, k)
    requires SectionBody(r, k) == ConcatMap(xs, f)
    ensures Contains(RenderHtmlResume(Record(r)), f(xs[i]))
  {
    var section := SectionHtml(r, k);
    SectionContained(r, k);
    ImageContained(xs, i, f);
    TitledContainsBody(Title(k), ConcatMap(xs, f));
    ContainsTransitive(section, ConcatMap(xs, f), f(xs[i]));
    ContainsTransitive(RenderHtmlResume(Record(r)), section, f(xs[i]));
  }

  /** Entries appear in the order the record lists them: a list section holds the
      earlier entries, then entry i, then the later ones. */
  lemma EntriesInOrder<T>(r: ResumeRecord, k: Section, xs: seq<T>, i: nat, f: T -> string)
    requires k != ContactSection && i < |xs| && Present(r, k)
    requires SectionBody(r, k) == ConcatMap(xs, f)
    ensures SectionHtml(r, k) == Titled(Title(k), ConcatMap(xs[..i], f) + f(xs[i]) + ConcatMap(xs[i + 1..], f))
  {
    ConcatMapSplit(xs, i, f);
  }

  /** A project without a name is headed "Unnamed Project". */
  lemma ProjectDefaults(p: Project)
    ensures StartsWith(ProjectHtml(p),
                       "<div class=\"project-entry\">" + "<h3>" + (if p.name == [] then "Unnamed Project" else p.name) + "</h3>")
  {
    var head := "<div class=\"project-entry\">" + "<h3>" + Or(p.name, "Unnamed Project") + "</h3>";
    var rest := ProjectDetails(p) + "</div>";
    assert ProjectHtml(p) == head + rest;
    PrefixOfConcat(head, rest);
  }

  /** A certification without a name or issuer shows "Unnamed Certification" and "N/A". */
  lemma CertificationDefaults(c: Certification)
    ensures StartsWith(CertificationHtml(c),
                       "<div class=\"certification-entry\">" + "<p><strong>"
                       + (if c.name == [] then "Unnamed Certification" else c.name) + "</strong> - "
                       + (if c.issuingOrganization == [] then "N/A" else c.issuingOrganization))
  {
    var head := "<div class=\"certification-entry\">" + "<p><strong>" + Or(c.name, "Unnamed Certification")
                + "</strong> - " + Or(c.issuingOrganization, "N/A");
    var rest := DateSuffix(c.date) + "</p>" + "</div>";
    assert CertificationHtml(c) == head + rest;
    PrefixOfConcat(head, rest);
  }

  /** An award without a name or organisation shows "Unnamed Award" and "N/A". */
  lemma AwardDefaults(a: Award)
    ensures StartsWith(AwardHtml(a),
                       "<div class=\"award-entry\">" + "<p><strong>"
                       + (if a.name == [] then "Unnamed Award" else a.name) + "</strong> - "
                       + (if a.organization == [] then "N/A" else a.organization))
  {
    var head := "<div class=\"award-entry\">" + "<p><strong>" + Or(a.name, "Unnamed Award")
                + "</strong> - " + Or(a.organization, "N/A");
    var rest := DateSuffix(a.date) + "</p>" + "</div>";
    assert AwardHtml(a) == head + rest;
    PrefixOfConcat(head, rest);
  }

  /** A dated certification or award differs from its undated form only by " (date)"
      just before the closing tags. */
  lemma DateInsertedBeforeClose(c: Certification, a: Award)
    ensures var u := CertificationHtml(c.(date := []));
            |u| >= 10 && CertificationHtml(c) == u[..|u| - 10] + DateSuffix(c.date) + "</p></div>"
    ensures var u := AwardHtml(a.(date := []));
            |u| >= 10 && AwardHtml(a) == u[..|u| - 10] + DateSuffix(a.date) + "</p></div>"
  {
    var cp := "<div class=\"certification-entry\">"
              + "<p><strong>" + Or(c.name, "Unnamed Certification") + "</strong> - " + Or(c.issuingOrganization, "N/A");
    var u := CertificationHtml(c.(date := []));
    assert u == cp + "</p></div>";
    assert u[..|u| - 10] == cp;
    var ap := "<div class=\"award-entry\">"
              + "<p><strong>" + Or(a.name, "Unnamed Award") + "</strong> - " + Or(a.organization, "N/A");
    var v := AwardHtml(a.(date := []));
    assert v == ap + "</p></div>";
    assert v[..|v| - 10] == ap;
  }

  /** An object that is present but empty still produces its frame. */
  lemma EmptyObjectsStillRender(r: ResumeRecord)
    requires r.contactInfo == Some(Contact([], [], [], [], [], []))
    requires r.skills == Some(Skills([], [], []))
    ensures SectionHtml(r, ContactSection) == HeaderOpen + "</header>"
    ensures SectionHtml(r, SkillsSection) == Titled("Skills", [])
  {
  }

}

=== FILE: seqs.dfy ===
/** Generic sequence combinators: the `forEach`/`join` accumulation and the
    conditional `push` patterns of the renderer are instances of these. */
module Seqs {

  /** The concatenation of f(x) over xs, in order. */
  function ConcatMap<T, U>(xs: seq<T>, f: T -> seq<U>): seq<U>
  {
    if xs == [] then [] else f(xs[0]) + ConcatMap(xs[1..], f)
  }

  lemma {:induction false} ConcatMapAppend<T, U>(xs: seq<T>, ys: seq<T>, f: T -> seq<U>)
    ensures ConcatMap(xs + ys, f) == ConcatMap(xs, f) + ConcatMap(ys, f)
    decreases |xs|
  {
    if xs == [] {
      assert xs + ys == ys;
    } else {
      assert (xs + ys)[1..] == xs[1..] + ys;
      ConcatMapAppend(xs[1..], ys, f);
    }
  }

  lemma ConcatMapSplit<T, U>(xs: seq<T>, i: nat, f: T -> seq<U>)
    requires i < |xs|
    ensures ConcatMap(xs, f) == ConcatMap(xs[..i], f) + f(xs[i]) + ConcatMap(xs[i + 1..], f)
  {
    assert xs == xs[..i] + xs[i..];
    ConcatMapAppend(xs[..i], xs[i..], f);
    ConcatMapSuffix(xs, i, f);
  }

  lemma ConcatMapSuffix<T, U>(xs: seq<T>, i: nat, f: T -> seq<U>)
    requires i < |xs|
    ensures ConcatMap(xs[i..], f) == f(xs[i]) + ConcatMap(xs[i + 1..], f)
  {
    assert xs[i..][1..] == xs[i + 1..];
  }

  /** The elements of xs that satisfy p, in their original order. */
  function Filter<T>(xs: seq<T>, p: T -> bool): (r: seq<T>)
    ensures |r| <= |xs|
    ensures forall i :: 0 <= i < |r| ==> r[i] in xs && p(r[i])
    ensures forall i :: 0 <= i < |xs| && p(xs[i]) ==> xs[i] in r
  {
    if xs == [] then []
    else if p(xs[0]) then [xs[0]] + Filter(xs[1..], p)
    else Filter(xs[1..], p)
  }

  /** A lower bound on the ranks of xs is a lower bound on the ranks of any filtering of xs. */
  lemma {:induction false} FilterKeepsLowerBound<T>(xs: seq<T>, p: T -> bool, rank: T -> int, lo: int)
    requires forall i :: 0 <= i < |xs| ==> lo < rank(xs[i])
    ensures var r := Filter(xs, p); forall i :: 0 <= i < |r| ==> lo < rank(r[i])
    decreases |xs|
  {
    if xs != [] {
      FilterKeepsLowerBound(xs[1..], p, rank, lo);
    }
  }

  predicate RankIncreasing<T>(xs: seq<T>, rank: T -> int)
  {
    forall i, j :: 0 <= i < j < |xs| ==> rank(xs[i]) < rank(xs[j])
  }

  lemma ConsRankIncreasing<T>(x: T, rest: seq<T>, rank: T -> int)
    requires RankIncreasing(rest, rank)
    requires forall i :: 0 <= i < |rest| ==> rank(x) < rank(rest[i])
    ensures RankIncreasing([x] + rest, rank)
  {
    var r := [x] + rest;
    forall i, j | 0 <= i < j < |r|
      ensures rank(r[i]) < rank(r[j])
    {
      assert r[j] == rest[j - 1];
      if i > 0 {
        assert r[i] == rest[i - 1];
      }
    }
  }

  /** Filtering keeps the relative order of the survivors. */
  lemma {:induction false} FilterKeepsOrder<T>(xs: seq<T>, p: T -> bool, rank: T -> int)
    requires RankIncreasing(xs, rank)
    ensures RankIncreasing(Filter(xs, p), rank)
    decreases |xs|
  {
    if xs != [] {
      var tail := xs[1..];
      assert RankIncreasing(tail, rank) by {
        forall i, j | 0 <= i < j < |tail|
          ensures rank(tail[i]) < rank(tail[j])
        {
          assert tail[i] == xs[i + 1] && tail[j] == xs[j + 1];
        }
      }
      FilterKeepsOrder(tail, p, rank);
      if p(xs[0]) {
        forall i | 0 <= i < |tail|
          ensures rank(xs[0]) < rank(tail[i])
        {
          assert tail[i] == xs[i + 1];
        }
        FilterKeepsLowerBound(tail, p, rank, rank(xs[0]));
        ConsRankIncreasing(xs[0], Filter(tail, p), rank);
      }
    }
  }

  /** Dropping elements whose image is empty does not change the concatenation. */
  lemma {:induction false} ConcatMapFilterDropsEmpty<T, U>(xs: seq<T>, p: T -> bool, f: T -> seq<U>)
    requires forall i :: 0 <= i < |xs| && !p(xs[i]) ==> f(xs[i]) == []
    ensures ConcatMap(Filter(xs, p), f) == ConcatMap(xs, f)
    decreases |xs|
  {
    if xs != [] {
      ConcatMapFilterDropsEmpty(xs[1..], p, f);
      if p(xs[0]) {
        assert ([xs[0]] + Filter(xs[1..], p))[1..] == Filter(xs[1..], p);
      }
    }
  }
}

=== FILE: settings.dfy ===
/** Browser-local settings (script.js lines 51-85 and 116-133): the selected service
    and each service's API key and model name, stored as string entries of a
    key-value store; loading them into the form on start-up; and the clear-all
    button, which empties the page and forgets the stored keys and models. */
module Settings {
  import opened Wrappers
  import opened Text
  import opened Config
  import opened Ui

  /** `localStorage`: a finite map from keys to strings; `getItem` of an absent key is null. */
  type Store = map<string, string>

  datatype SettingKind = ApiKey | ModelName

  const SelectedLlmKey: string := "selectedLLM"
  const DefaultService: string := "gemini"

  function KindSuffix(kind: SettingKind): string
  {
    match kind
    case ApiKey => "ApiKey"
    case ModelName => "ModelName"
  }

  /** `${service}${type}`, e.g. "openaiModelName". */
  function SettingKey(s: Service, kind: SettingKind): string
  {
    Name(s) + KindSuffix(kind)
  }

  /** The six per-service keys. */
  const ServiceKeys: set<string> := {
    SettingKey(Gemini, ApiKey), SettingKey(Gemini, ModelName),
    SettingKey(OpenAi, ApiKey), SettingKey(OpenAi, ModelName),
    SettingKey(Claude, ApiKey), SettingKey(Claude, ModelName)
  }

  /** Distinct (service, kind) pairs name distinct entries, none of them the selection entry. */
  lemma SettingKeysDistinct(s: Service, k: SettingKind, s': Service, k': SettingKind)
    ensures SettingKey(s, k) != SelectedLlmKey
    ensures SettingKey(s, k) in ServiceKeys
    ensures SelectedLlmKey !in ServiceKeys
    ensures SettingKey(s, k) == SettingKey(s', k') ==> s == s' && k == k'
  {
    assert |Name(s)| == 6 && |Name(s')| == 6;
    if SettingKey(s, k) == SettingKey(s', k') {
      assert |KindSuffix(k)| == |KindSuffix(k')|;
      assert Name(s)[0] == SettingKey(s, k)[0] == Name(s')[0];
    }
  }

  /** The value of a stored entry that is present and non-empty: JavaScript's truthiness of `getItem`. */
  function Truthy(store: Store, key: string): (r: Option<string>)
    ensures r.Some? <==> key in store && store[key] != []
    ensures r.Some? ==> r.value == store[key]
  {
    if key in store && store[key] != [] then Some(store[key]) else None
  }

  /** `saveLLMSetting(service, type, value)`: one `setItem`. */
  function SaveSetting(store: Store, s: Service, kind: SettingKind, value: string): (r: Store)
    ensures r.Keys == store.Keys + {SettingKey(s, kind)}
    ensures r[SettingKey(s, kind)] == value
    ensures forall key :: key in store && key != SettingKey(s, kind) ==> r[key] == store[key]
  {
    store[SettingKey(s, kind) := value]
  }

  /** The `input` listeners of the key and model fields: the trimmed field text is saved. */
  function OnSettingInput(store: Store, s: Service, kind: SettingKind, raw: string): (r: Store)
    ensures SettingKey(s, kind) in r && r[SettingKey(s, kind)] == Trim(raw)
    ensures Unpadded(r[SettingKey(s, kind)])
    ensures forall key :: key != SettingKey(s, kind) ==> (key in r <==> key in store)
    ensures forall key :: key in store && key != SettingKey(s, kind) ==> r[key] == store[key]
  {
    SaveSetting(store, s, kind, Trim(raw))
  }

  /** The `change` listener of the service selector. */
  function OnSelectionChange(store: Store, s: Service): (r: Store)
    ensures r.Keys == store.Keys + {SelectedLlmKey}
    ensures r[SelectedLlmKey] == Name(s)
    ensures forall key :: key in store && key != SelectedLlmKey ==> r[key] == store[key]
  {
    store[SelectedLlmKey := Name(s)]
  }

  /** `loadLLMSettings`: the stored selection, or "gemini" when it is absent or empty,
      is assigned to the selector; a service's stored key or model replaces the
      field's current text only when it is non-empty. */
  function LoadSettings(store: Store, form: Form): (r: Form)
    ensures Truthy(store, SelectedLlmKey).None? ==> r.selection == Some(Gemini)
    ensures Truthy(store, SelectedLlmKey).Some? ==> r.selection == ParseService(store[SelectedLlmKey])
    ensures forall s :: r.fields.Get(s) == LoadFields(store, s, form.fields.Get(s))
  {
    var selected := Truthy(store, SelectedLlmKey).GetOr(DefaultService);
    Form(ParseService(selected),
         PerService(LoadFields(store, Gemini, form.fields.gemini),
                    LoadFields(store, OpenAi, form.fields.openai),
                    LoadFields(store, Claude, form.fields.claude)))
  }

  function LoadFields(store: Store, s: Service, current: ServiceFields): (r: ServiceFields)
    ensures var key := SettingKey(s, ApiKey);
            && (key in store && store[key] != [] ==> r.apiKey == store[key])
            && (key !in store || store[key] == [] ==> r.apiKey == current.apiKey)
    ensures var key := SettingKey(s, ModelName);
            && (key in store && store[key] != [] ==> r.modelName == store[key])
            && (key !in store || store[key] == [] ==> r.modelName == current.modelName)
  {
    ServiceFields(Truthy(store, SettingKey(s, ApiKey)).GetOr(current.apiKey),
                  Truthy(store, SettingKey(s, ModelName)).GetOr(current.modelName))
  }

  /** The storage effect of the clear-all button: the six per-service entries are
      removed; the selection and any unrelated entry stay. */
  function ClearStore(store: Store): (r: Store)
    ensures r.Keys == store.Keys - ServiceKeys
    ensures forall key :: key in r ==> r[key] == store[key]
    ensures SelectedLlmKey in r <==> SelectedLlmKey in store
  {
    SettingKeysDistinct(Gemini, ApiKey, Gemini, ApiKey);
    store - ServiceKeys
  }

  /** The clear-all button: empties the resume, job-description, output and letter
      fields, blanks every API key, resets every model to the field's HTML default
      (`defaultModels`, "" where there is none), keeps the selected service, and
      clears the stored keys and models. */
  function ClearAll(store: Store, page: Page, defaultModels: PerService<string>): (r: (Store, Page))
    ensures r.0 == ClearStore(store)
    ensures r.1.parsedJson == [] && r.1.jobDescription == [] && r.1.resumeOutput == [] && r.1.coverLetter == []
    ensures r.1.form.selection == page.form.selection
    ensures forall s :: r.1.form.fields.Get(s) == ServiceFields("", defaultModels.Get(s))
  {
    var fields := PerService(ServiceFields("", defaultModels.gemini),
                             ServiceFields("", defaultModels.openai),
                             ServiceFields("", defaultModels.claude));
    (ClearStore(store), Page(Form(page.form.selection, fields), "", "", "", ""))
  }

  /** Saving a key or model and loading the settings again puts the trimmed text back
      in that field, unless it trimmed to nothing. */
  lemma SaveThenLoad(store: Store, form: Form, s: Service, kind: SettingKind, raw: string)
    ensures var loaded := LoadSettings(OnSettingInput(store, s, kind, raw), form).fields.Get(s);
            var current := form.fields.Get(s);
            && (kind == ApiKey ==> loaded.apiKey == if Trim(raw) != [] then Trim(raw) else current.apiKey)
            && (kind == ModelName ==> loaded.modelName == if Trim(raw) != [] then Trim(raw) else current.modelName)
  {
    SettingKeysDistinct(s, kind, s, kind);
  }

  /** Saving one field changes what loading puts in no other field, nor the selection. */
  lemma SaveLeavesOtherSettings(store: Store, form: Form, s: Service, kind: SettingKind, raw: string)
    ensures var stored := OnSettingInput(store, s, kind, raw);
            && LoadSettings(stored, form).selection == LoadSettings(store, form).selection
            && (forall t, k :: (t, k) != (s, kind) ==> Truthy(stored, SettingKey(t, k)) == Truthy(store, SettingKey(t, k)))
            && (forall t :: t != s ==> LoadSettings(stored, form).fields.Get(t) == LoadSettings(store, form).fields.Get(t))
  {
    SaveKeepsSelection(store, form, s, kind, raw);
    SaveKeepsOtherEntries(store, s, kind, raw);
    SaveKeepsOtherServices(store, form, s, kind, raw);
  }

  lemma SaveKeepsOtherServices(store: Store, form: Form, s: Service, kind: SettingKind, raw: string)
    ensures var stored := OnSettingInput(store, s, kind, raw);
            forall t :: t != s ==> LoadSettings(stored, form).fields.Get(t) == LoadSettings(store, form).fields.Get(t)
  {
    var stored := OnSettingInput(store, s, kind, raw);
    forall t | t != s
      ensures LoadFields(stored, t, form.fields.Get(t)) == LoadFields(store, t, form.fields.Get(t))
    {
      SettingKeysDistinct(t, ApiKey, s, kind);
      SettingKeysDistinct(t, ModelName, s, kind);
    }
  }

  lemma SaveKeepsSelection(store: Store, form: Form, s: Service, kind: SettingKind, raw: string)
    ensures LoadSettings(OnSettingInput(store, s, kind, raw), form).selection == LoadSettings(store, form).selection
  {
    SettingKeysDistinct(s, kind, s, kind);
    assert Truthy(OnSettingInput(store, s, kind, raw), SelectedLlmKey) == Truthy(store, SelectedLlmKey);
  }

  lemma SaveKeepsOtherEntries(store: Store, s: Service, kind: SettingKind, raw: string)
    ensures var stored := OnSettingInput(store, s, kind, raw);
            forall t, k :: (t, k) != (s, kind) ==> Truthy(stored, SettingKey(t, k)) == Truthy(store, SettingKey(t, k))
  {
    var stored := OnSettingInput(store, s, kind, raw);
    forall t: Service, k: SettingKind | (t, k) != (s, kind)
      ensures Truthy(stored, SettingKey(t, k)) == Truthy(store, SettingKey(t, k))
    {
      SettingKeysDistinct(t, k, s, kind);
    }
  }

  /** Choosing a service and loading the settings again selects that service. */
  lemma SelectThenLoad(store: Store, form: Form, s: Service)
    ensures LoadSettings(OnSelectionChange(store, s), form).selection == Some(s)
  {
    ParseServiceName(s);
  }

  /** After clear-all, loading restores every key and model field to what the form
      held before loading, and the selection is what it was. */
  lemma ClearThenLoad(store: Store, form: Form)
    ensures LoadSettings(ClearStore(store), form).fields == form.fields
    ensures LoadSettings(ClearStore(store), form).selection == LoadSettings(store, form).selection
  {
    var cleared := ClearStore(store);
    forall t: Service, k: SettingKind
      ensures Truthy(cleared, SettingKey(t, k)).None?
    {
      SettingKeysDistinct(t, k, t, k);
    }
    SettingKeysDistinct(Gemini, ApiKey, Gemini, ApiKey);
  }
}

=== FILE: text.dfy ===
/** String primitives of JavaScript that the application relies on: the white-space
    class shared by the regular-expression escape `\s` and `String.prototype.trim`,
    trimming, prefix/suffix/substring tests, and `Array.prototype.join`. */
module Text {

  /** ECMAScript's WhiteSpace and LineTerminator code points. `\s` in a regular
      expression and `trim()` are both defined over exactly this set. */
  const WhitespaceChars: set<char> := {
    '\t', '\n', '\U{000B}', '\U{000C}', '\r', ' ', '\U{00A0}', '\U{1680}',
    '\U{2000}', '\U{2001}', '\U{2002}', '\U{2003}', '\U{2004}', '\U{2005}',
    '\U{2006}', '\U{2007}', '\U{2008}', '\U{2009}', '\U{200A}',
    '\U{2028}', '\U{2029}', '\U{202F}', '\U{205F}', '\U{3000}', '\U{FEFF}'
  }

  predicate IsWhitespace(c: char)
  {
    c in WhitespaceChars
  }

  predicate AllWhitespace(s: string)
  {
    forall i :: 0 <= i < |s| ==> IsWhitespace(s[i])
  }

  /** Neither end of s is white space: what `trim()` returns. */
  predicate Unpadded(s: string)
  {
    s == [] || (!IsWhitespace(s[0]) && !IsWhitespace(s[|s| - 1]))
  }

  /** The length of the longest all-white-space prefix of s. */
  function LeadingWhitespace(s: string): (n: nat)
    ensures n <= |s|
    ensures forall k :: 0 <= k < n ==> IsWhitespace(s[k])
    ensures n < |s| ==> !IsWhitespace(s[n])
  {
    if |s| > 0 && IsWhitespace(s[0]) then 1 + LeadingWhitespace(s[1..]) else 0
  }

  /** The length of the longest all-white-space suffix of s. */
  function TrailingWhitespace(s: string): (n: nat)
    ensures n <= |s|
    ensures forall k :: |s| - n <= k < |s| ==> IsWhitespace(s[k])
    ensures n < |s| ==> !IsWhitespace(s[|s| - n - 1])
  {
    if |s| > 0 && IsWhitespace(s[|s| - 1]) then 1 + TrailingWhitespace(s[..|s| - 1]) else 0
  }

  /** Only one prefix length is all white space and followed by a non-white-space character or the end. */
  lemma LeadingWhitespaceUnique(s: string, n: nat)
    requires n <= |s|
    requires forall k :: 0 <= k < n ==> IsWhitespace(s[k])
    requires n < |s| ==> !IsWhitespace(s[n])
    ensures LeadingWhitespace(s) == n
  {
  }

  lemma TrailingWhitespaceUnique(s: string, n: nat)
    requires n <= |s|
    requires forall k :: |s| - n <= k < |s| ==> IsWhitespace(s[k])
    requires n < |s| ==> !IsWhitespace(s[|s| - n - 1])
    ensures TrailingWhitespace(s) == n
  {
  }

  /** `String.prototype.trim`: s with white space removed at both ends and nowhere else. */
  function Trim(s: string): (r: string)
    ensures Unpadded(r)
    ensures r == [] <==> AllWhitespace(s)
    ensures var i := LeadingWhitespace(s);
            i + |r| <= |s| && r == s[i..i + |r|] && AllWhitespace(s[..i]) && AllWhitespace(s[i + |r|..])
  {
    var n := LeadingWhitespace(s);
    var t := s[n..];
    var m := TrailingWhitespace(t);
    var r := t[..|t| - m];
    assert r == s[n..n + |r|];
    var rest := s[n + |r|..];
    assert AllWhitespace(rest) by {
      forall k | 0 <= k < |rest|
        ensures IsWhitespace(rest[k])
      {
        assert rest[k] == t[|t| - m + k];
      }
    }
    assert AllWhitespace(s[..n]);
    assert AllWhitespace(s) ==> n == |s|;
    r
  }

  /** Trimming recovers an unpadded text from any white-space padding around it. */
  lemma TrimStripsPadding(a: string, x: string, b: string)
    requires AllWhitespace(a) && AllWhitespace(b) && Unpadded(x)
    ensures Trim(a + x + b) == x
  {
    var s := a + x + b;
    if x == [] {
      assert AllWhitespace(s) by {
        forall k | 0 <= k < |s|
          ensures IsWhitespace(s[k])
        {
          if k < |a| {
            assert s[k] == a[k];
          } else {
            assert s[k] == b[k - |a|];
          }
        }
      }
    } else {
      forall k | 0 <= k < |a|
        ensures IsWhitespace(s[k])
      {
        assert s[k] == a[k];
      }
      assert s[|a|] == x[0];
      LeadingWhitespaceUnique(s, |a|);
      var t := s[|a|..];
      assert t == x + b;
      forall k | |t| - |b| <= k < |t|
        ensures IsWhitespace(t[k])
      {
        assert t[k] == b[k - |x|];
      }
      assert t[|t| - |b| - 1] == x[|x| - 1];
      TrailingWhitespaceUnique(t, |b|);
      assert t[..|t| - |b|] == x;
    }
  }

  /** Every character of an all-white-space tail is white space. */
  lemma WhitespaceTail(s: string, n: nat)
    requires n <= |s| && AllWhitespace(s[n..])
    ensures forall k :: n <= k < |s| ==> IsWhitespace(s[k])
  {
    forall k | n <= k < |s|
      ensures IsWhitespace(s[k])
    {
      assert s[n..][k - n] == s[k];
    }
  }

  lemma TrimIdempotent(s: string)
    ensures Trim(Trim(s)) == Trim(s)
  {
    var t := Trim(s);
    assert [] + t + [] == t;
    TrimStripsPadding([], t, []);
  }

  predicate StartsWith(s: string, prefix: string)
  {
    |prefix| <= |s| && s[..|prefix|] == prefix
  }

  predicate EndsWith(s: string, suffix: string)
  {
    |suffix| <= |s| && s[|s| - |suffix|..] == suffix
  }

  lemma Enclosed(open: string, body: string, close: string)
    ensures StartsWith(open + body + close, open) && EndsWith(open + body + close, close)
  {
    var s := open + body + close;
    assert s[..|open|] == open;
    assert s[|s| - |close|..] == close;
  }

  lemma PrefixOfConcat(a: string, b: string)
    ensures StartsWith(a + b, a)
  {
    assert (a + b)[..|a|] == a;
  }

  /** `String.prototype.includes`. */
  predicate Contains(s: string, part: string)
  {
    exists i :: 0 <= i <= |s| - |part| && StartsWith(s[i..], part)
  }

  lemma ContainsTransitive(s: string, t: string, u: string)
    requires Contains(s, t) && Contains(t, u)
    ensures Contains(s, u)
  {
    var i :| 0 <= i <= |s| - |t| && StartsWith(s[i..], t);
    var j :| 0 <= j <= |t| - |u| && StartsWith(t[j..], u);
    assert s[i..][..|t|] == t;
    forall k | 0 <= k < |u|
      ensures s[i + j + k] == u[k]
    {
      assert t[j..][..|u|][k] == u[k];
      assert s[i..][..|t|][j + k] == t[j + k];
    }
    assert s[i + j..][..|u|] == u;
  }

  lemma ContainsMiddle(a: string, part: string, b: string)
    ensures Contains(a + part + b, part)
  {
    var s := a + part + b;
    assert s[|a|..][..|part|] == part;
    assert StartsWith(s[|a|..], part);
  }

  /** `Array.prototype.join` over strings. */
  function Join(parts: seq<string>, sep: string): (r: string)
    ensures parts == [] ==> r == []
    ensures |parts| == 1 ==> r == parts[0]
  {
    if |parts| == 0 then ""
    else if |parts| == 1 then parts[0]
    else parts[0] + sep + Join(parts[1..], sep)
  }

  /** Appending a part to a non-empty list adds one separator and that part at the end. */
  lemma {:induction false} JoinSnoc(parts: seq<string>, x: string, sep: string)
    requires parts != []
    ensures Join(parts + [x], sep) == Join(parts, sep) + sep + x
    decreases |parts|
  {
    var all := parts + [x];
    assert all[0] == parts[0];
    if |parts| == 1 {
      assert all[1..] == [x];
    } else {
      assert all[1..] == parts[1..] + [x];
      JoinSnoc(parts[1..], x, sep);
    }
  }

  function UpperChar(c: char): char
  {
    if 'a' <= c <= 'z' then (c as int - 'a' as int + 'A' as int) as char else c
  }

  /** `String.prototype.toUpperCase`, on the ASCII letters that service names use. */
  function AsciiUpper(s: string): (r: string)
    ensures |r| == |s|
  {
    seq(|s|, i requires 0 <= i < |s| => UpperChar(s[i]))
  }
}

=== FILE: ui.dfy ===
/** The state of the page that the handlers read and write: the settings form, the
    editable resume JSON and job description, the rendered-resume container and the
    cover-letter box. The file input, the message area and the busy state are not
    part of the model. */
module Ui {
  import opened Config

  datatype Page = Page(
    form: Form,
    parsedJson: string,       // the parsed-resume textarea
    jobDescription: string,   // the job-description textarea
    resumeOutput: string,     // the string last assigned to the output container's innerHTML
    coverLetter: string       // the cover-letter textarea
  )
}

=== FILE: wrappers.dfy ===
/** Failure-carrying values used throughout the model: a JavaScript value that may be
    missing becomes an Option, and a call that may throw becomes a Result. */
module Wrappers {

  datatype Option<+T> = None | Some(value: T)
  {
    /** The value, or `default` when there is none: JavaScript's `value || default`. */
    function GetOr(default: T): T
    {
      match this
      case Some(v) => v
      case None => default
    }
  }

  datatype Result<+R, +E> = Success(value: R) | Failure(error: E)
}
